=== FILE: README.md ===
# Chakra wellness app — a Dafny model of its pure logic

The app is an Android app. A user takes a short quiz rating imbalances of the seven chakras,
from Root to Crown, on 1-to-5 sliders. The answers are merged into a per-user document in a
document database. The app then shows imbalance percentages as bubbles and the change from the
previous quiz. Its data layer also holds a calculation of per-chakra light durations that share
out a 21-minute session; nothing in the app calls it, and the lights are driven from a stored
durations field instead.

Two forms create the account and the profile.

This project pulls out the deterministic logic and states it as pure functions with contracts.
That logic sits inside database callbacks and Compose screens in the source. It covers:

- the quiz-result merge run inside the `saveQuizResults` transaction, and its signed-in guard;
- the normalisation of untyped stored values into typed answers;
- `calculateLightDurations`;
- the results screen's maxima, percentage and bubble positions;
- the profile screen's `extractChakraScores`, `formatChange` and latest-versus-previous comparison;
- the summary screen's timestamp filtering, per-chakra totals and most-imbalanced selection;
- the quiz screen's question table, starting responses, slider updates and unanswered check,
  plus the `submitQuiz` guard;
- the create-profile and create-account validators, including Kotlin's `String.toIntOrNull`.

Modules follow the source files:

| module | file |
|---|---|
| `FirestoreUtils` | `firestore_utils.dfy` |
| `ChakraResultsScreen` | `chakra_results_screen.dfy` |
| `ProfileScreen` | `profile_screen.dfy` |
| `QuizResultsScreen` | `quiz_results_screen.dfy` |
| `QuizScreen` | `quiz_screen.dfy` |
| `CreateProfileScreen` | `create_profile_screen.dfy` |
| `CreateAccountScreen` | `create_account_screen.dfy` |

Shared modules:

- `Wrappers` (`Option`, `Result`).
- `Kotlin`: the 32-bit `Int`, wrap-around, `toIntOrNull`, and rendering an `Int` as text.
- `Dynamic`: the untyped value `Dyn` a database read hands back.
- `Sums`: sums over map values. They do not depend on iteration order.
- `Models`: `UserProfile` and `QuizResult`.
- `Chakras`: the seven names.

Kotlin's `Int` is 32-bit. Sums of answers wrap modulo 2^32 (`Sums.IntSum`), and so does
`Number.toInt()` of a stored 64-bit number. A profile difference is `score - previousScore` in
`Int` arithmetic, so it wraps too. `formatChange(Int.MIN_VALUE)` therefore reads
"↑ Improved by -2147483648", and the model keeps that.

## Model

| member | source | states |
|---|---|---|
| Kotlin.WrapToInt32 | app/src/main/java/com/chakrawellness/app/utility/FirestoreUtils.kt:149 | `toInt()` of a number keeps an in-range value and otherwise yields the 32-bit value congruent to it modulo 2^32 |
| Kotlin.ToIntOrNull | app/src/main/java/com/chakrawellness/app/screens/CreateProfileScreen.kt:99-102 | the library's left-to-right scan with early overflow exit returns exactly the reference `ParseInt`: an optional sign then digits whose value fits in an Int, otherwise null |
| Kotlin.NatToString | app/src/main/java/com/chakrawellness/app/screens/ProfileScreen.kt:155 | rendering a number gives a non-empty digit string with no leading zero that denotes the number |
| Kotlin.IntToString | app/src/main/java/com/chakrawellness/app/screens/ProfileScreen.kt:155-156 | the rendering of an Int starts with '-' exactly when the Int is negative |
| Kotlin.ParseIntToString | app/src/main/java/com/chakrawellness/app/screens/ProfileScreen.kt:155-156 | parsing the rendering of any Int gives that Int back |
| Kotlin.DigitsValuePrefix | app/src/main/java/com/chakrawellness/app/screens/CreateProfileScreen.kt:99 | a prefix of a digit run never denotes more than the whole run, which justifies stopping at the first overflow |
| Sums.SumOnRemove | app/src/main/java/com/chakrawellness/app/utility/FirestoreUtils.kt:171 | a map's value sum is the same whichever key is taken first, so iteration order does not matter |
| Sums.MapSumBounds | app/src/main/java/com/chakrawellness/app/screens/ChakraResultsScreen.kt:86 | values between lo and hi sum to between lo and hi times the number of entries |
| Sums.MapSumSingleton | app/src/main/java/com/chakrawellness/app/utility/FirestoreUtils.kt:171 | a one-entry map sums to its value |
| Sums.MapSumAdditive | app/src/main/java/com/chakrawellness/app/utility/FirestoreUtils.kt:176-179 | applying an additive map that sends 0 to 0 to every value applies it to the sum, so scaling the totals scales their sum |
| Sums.SumValues | app/src/main/java/com/chakrawellness/app/utility/FirestoreUtils.kt:171 | summing the values one key at a time gives the order-free map sum |
| Dynamic.FromResults | app/src/main/java/com/chakrawellness/app/utility/FirestoreUtils.kt:107 | storing typed results keeps the chakra key set |
| FirestoreUtils.MergeQuizResults | app/src/main/java/com/chakrawellness/app/utility/FirestoreUtils.kt:91-101 | merged chakras are the stored plus the new ones; a chakra with no new answers is untouched; a new chakra's answers are its stored map (empty if not a map) plus the new answers; a new answer wins; a stored answer not re-answered is kept |
| FirestoreUtils.MergeIdempotent | app/src/main/java/com/chakrawellness/app/utility/FirestoreUtils.kt:97-101 | merging the same new answers twice equals merging them once |
| FirestoreUtils.SaveQuizResults | app/src/main/java/com/chakrawellness/app/utility/FirestoreUtils.kt:80-107 | an empty user id fails with "User is not authenticated" and only then; otherwise the written document holds exactly the user id, the merged results over the union of chakras, and a server timestamp |
| FirestoreUtils.NormaliseScores | app/src/main/java/com/chakrawellness/app/utility/FirestoreUtils.kt:148-150 | the question keys are kept; a non-map becomes the empty map; an in-range number is kept; a non-number becomes 0 |
| FirestoreUtils.NormaliseResults | app/src/main/java/com/chakrawellness/app/utility/FirestoreUtils.kt:147-151 | the chakra key set is kept; a non-map chakra becomes empty; a map chakra keeps its question keys |
| FirestoreUtils.ReadQuizResults | app/src/main/java/com/chakrawellness/app/utility/FirestoreUtils.kt:272-278 | a missing or non-map "quizResults" field reads as no chakras; otherwise the chakras are those stored |
| FirestoreUtils.NormaliseFromResults | app/src/main/java/com/chakrawellness/app/utility/FirestoreUtils.kt:274-278 | typed answers stored and normalised back are unchanged |
| FirestoreUtils.NormaliseOverride | app/src/main/java/com/chakrawellness/app/utility/FirestoreUtils.kt:98-99 | normalising stored answers overridden by new ones equals the normalised stored answers overridden by the new ones |
| FirestoreUtils.MergeThenNormalise | app/src/main/java/com/chakrawellness/app/utility/FirestoreUtils.kt:91-101 | normalising the merged stored results equals the typed override merge of the normalised stored results and the new answers |
| FirestoreUtils.SaveThenRead | app/src/main/java/com/chakrawellness/app/utility/FirestoreUtils.kt:91-107 | reading a document back after a save gives the typed per-chakra override merge of what was readable before and the new answers |
| FirestoreUtils.CoerceIn | app/src/main/java/com/chakrawellness/app/utility/FirestoreUtils.kt:180 | the result lies in [lo, hi], equals x inside it and the nearer bound outside it |
| FirestoreUtils.ChakraTotals | app/src/main/java/com/chakrawellness/app/utility/FirestoreUtils.kt:170-173 | one total per chakra of the input |
| FirestoreUtils.LightDurations | app/src/main/java/com/chakrawellness/app/utility/FirestoreUtils.kt:164-185 | exactly the input's chakras; every duration in [1, 5] when the total is positive, otherwise exactly 1 |
| FirestoreUtils.ShareAdditive | app/src/main/java/com/chakrawellness/app/utility/FirestoreUtils.kt:179 | the share of a sum of scores is the sum of their shares |
| FirestoreUtils.SharesSum | app/src/main/java/com/chakrawellness/app/utility/FirestoreUtils.kt:176-179 | when the grand total is positive, the shares of all chakras add up to exactly 21 minutes |
| FirestoreUtils.SharesFillBudget | app/src/main/java/com/chakrawellness/app/utility/FirestoreUtils.kt:176-179 | over exact reals the unclamped shares add up to 21 minutes |
| FirestoreUtils.ShareMonotone | app/src/main/java/com/chakrawellness/app/utility/FirestoreUtils.kt:179 | a larger score never gets a smaller share |
| FirestoreUtils.DurationsMonotone | app/src/main/java/com/chakrawellness/app/utility/FirestoreUtils.kt:177-184 | a chakra with a larger total never gets a shorter duration |
| FirestoreUtils.UnansweredGetsMinimum | app/src/main/java/com/chakrawellness/app/utility/FirestoreUtils.kt:182-183 | with no answers at all every chakra gets the 1-minute default |
| FirestoreUtils.ClampingBreaksBudget | app/src/main/java/com/chakrawellness/app/utility/FirestoreUtils.kt:179-180 | one answered chakra gets the whole 21-minute share, clamped to 5, so clamped durations need not add to 21 |
| ChakraResultsScreen.MaxScoreForChakra | app/src/main/java/com/chakrawellness/app/screens/ChakraResultsScreen.kt:102-113 | always positive; a multiple of 5 between 20 and 50 exactly for the seven chakras; 1 for any other name |
| ChakraResultsScreen.MaxScoreTable | app/src/main/java/com/chakrawellness/app/screens/ChakraResultsScreen.kt:102-113 | Root to Crown, the maxima are 5 times 6, 10, 5, 7, 4, 6 and 4 questions |
| QuizScreen.MaximaExceedQuestionTable | app/src/main/java/com/chakrawellness/app/screens/ChakraResultsScreen.kt:102-113 | for every chakra, five points on each question the quiz asks stays below the maximum, so a completed quiz never reaches 100 percent |
| ChakraResultsScreen.TruncateToInt | app/src/main/java/com/chakrawellness/app/screens/ChakraResultsScreen.kt:89 | converting to an Int drops the fraction toward zero (below-or-at x for x ≥ 0, at-or-above x for x < 0, within 1) and saturates at Int.MAX_VALUE and Int.MIN_VALUE beyond the Int range |
| ChakraResultsScreen.RealQuotientFloor | app/src/main/java/com/chakrawellness/app/screens/ChakraResultsScreen.kt:89 | dropping the fraction of an exact non-negative quotient is integer division |
| ChakraResultsScreen.Percentage | app/src/main/java/com/chakrawellness/app/screens/ChakraResultsScreen.kt:88-90 | 0 when the maximum is not positive or the total is 0; for a non-negative total it is total·100 div maximum while that fits an Int and Int.MAX_VALUE beyond; in [0, 100] when 0 ≤ total ≤ maximum; exactly 100 at the maximum |
| ChakraResultsScreen.PercentageExact | app/src/main/java/com/chakrawellness/app/screens/ChakraResultsScreen.kt:89 | for a non-negative total and positive maximum, dropping the fraction of total/maximum·100 gives total·100 div maximum, which the Int conversion keeps while it fits and saturates beyond; at most 100 when total ≤ maximum and exactly 100 at the maximum |
| ChakraResultsScreen.PercentageMonotone | app/src/main/java/com/chakrawellness/app/screens/ChakraResultsScreen.kt:88-90 | a larger non-negative total never shows a smaller percentage |
| ChakraResultsScreen.ChakraOffset | app/src/main/java/com/chakrawellness/app/screens/ChakraResultsScreen.kt:116-127 | x is always 0; an unknown name and only an unknown name sits at (0, 0); a chakra's y lies in [-240, 180] on the 70-unit grid from Root |
| ChakraResultsScreen.OffsetsFollowChakraOrder | app/src/main/java/com/chakrawellness/app/screens/ChakraResultsScreen.kt:116-127 | the seven chakras sit 70 units apart from Root at 180, each strictly above the one before it in the Root-to-Crown order |
| ChakraResultsScreen.ResultBubbles | app/src/main/java/com/chakrawellness/app/screens/ChakraResultsScreen.kt:84-94 | one bubble per chakra of the results, on the centre line |
| ChakraResultsScreen.BubblePercentageBounded | app/src/main/java/com/chakrawellness/app/screens/ChakraResultsScreen.kt:84-90 | slider answers whose count fits the maximum show between 0 and 100 percent, and 100 when all are 5 and fill the maximum |
| ProfileScreen.HistoryEntry | app/src/main/java/com/chakrawellness/app/screens/ProfileScreen.kt:63-68 | a loaded quiz is shown to the screen as a map with a "quizResults" and a "timestamp" field |
| ProfileScreen.ExtractChakraScores | app/src/main/java/com/chakrawellness/app/screens/ProfileScreen.kt:147-150 | a missing or non-map "quizResults" gives no scores; a map gives one wrapped Int total per chakra, and fails (the summing throws) exactly when some chakra is not a map or some answer is not a number |
| ProfileScreen.LongAnswerSummedWrapped | app/src/main/java/com/chakrawellness/app/screens/ProfileScreen.kt:147-150 | a stored answer of 2^31 is summed through its 32-bit conversion, giving Int.MIN_VALUE, rather than failing the cast |
| ProfileScreen.Totals | app/src/main/java/com/chakrawellness/app/screens/ProfileScreen.kt:149 | one total per chakra of a loaded quiz |
| ProfileScreen.ExtractFromHistoryEntry | app/src/main/java/com/chakrawellness/app/screens/ProfileScreen.kt:147-150 | on a loaded quiz extraction succeeds with each chakra's Int sum, and a chakra with no answers totals 0 |
| ProfileScreen.FormatChange | app/src/main/java/com/chakrawellness/app/screens/ProfileScreen.kt:153-159 | "↓ Worse by" exactly for a positive change, "↑ Improved by" exactly for a negative one, "No change" exactly for 0 |
| ProfileScreen.FormatChangeReadsBack | app/src/main/java/com/chakrawellness/app/screens/ProfileScreen.kt:155-156 | the number after the prefix reads back as the change, or as its positive magnitude for an improvement, except that Int.MIN_VALUE reads back unchanged |
| ProfileScreen.ColourMatchesWording | app/src/main/java/com/chakrawellness/app/screens/ProfileScreen.kt:126-133 | red exactly when the text starts "↓ Worse by ", green exactly when it starts "↑ Improved by ", black exactly when it is "No change" |
| ProfileScreen.ColourFollowsScores | app/src/main/java/com/chakrawellness/app/screens/ProfileScreen.kt:122-133 | while the Int subtraction does not overflow, a line is red exactly when the score rose, green exactly when it fell and black exactly when it held; a rise too large for an Int wraps and shows green, a fall too large shows red |
| ProfileScreen.CompareLatest | app/src/main/java/com/chakrawellness/app/screens/ProfileScreen.kt:116-137 | nothing to compare exactly when the list is empty; each line's colour is red, green or black as its difference is positive, negative or zero |
| ProfileScreen.LatestAgainstPrevious | app/src/main/java/com/chakrawellness/app/screens/ProfileScreen.kt:116-124 | for loaded quizzes there is one line per chakra of the latest quiz, with its total and the wrapped difference from the previous quiz's total, which defaults to 0 |
| ProfileScreen.OldestShownAsLatest | app/src/main/java/com/chakrawellness/app/screens/ProfileScreen.kt:117-124 | for any chakra whose total grew from the older quiz to the newer one, with the quizzes listed newest first as the loader lists them, the view shows the older total, in green as an improvement; the app's own saves keep one quiz document per user, so such a two-quiz list needs another writer |
| ProfileScreen.CompareNewest | app/src/main/java/com/chakrawellness/app/utility/FirestoreUtils.kt:268 | the corrected comparison has nothing to show exactly when the list is empty |
| ProfileScreen.NewestAgainstPrevious | app/src/main/java/com/chakrawellness/app/utility/FirestoreUtils.kt:268 | for quizzes listed newest first, the corrected view lists every chakra of the first quiz with its total and the wrapped difference from the second quiz's total, 0 when absent |
| ProfileScreen.NewestShownAsLatest | app/src/main/java/com/chakrawellness/app/screens/ProfileScreen.kt:117-124 | for any chakra whose total grew from the second quiz to the first, the corrected view shows the first quiz's total, in red as worse |
| QuizResultsScreen.NumericAnswers | app/src/main/java/com/chakrawellness/app/screens/QuizResultsScreen.kt:26 | exactly the numeric entries of an answer map are kept, each as an Int: an in-range number as itself, any other number wrapped into the Int range |
| QuizResultsScreen.ChakraScore | app/src/main/java/com/chakrawellness/app/screens/QuizResultsScreen.kt:25-27 | a value that is not a map scores 0, and so does a map holding no numbers |
| QuizResultsScreen.ChakraScoreOfStored | app/src/main/java/com/chakrawellness/app/screens/QuizResultsScreen.kt:25-27 | answers stored as Int numbers score exactly their wrapped Int sum |
| QuizResultsScreen.CleanResults | app/src/main/java/com/chakrawellness/app/screens/QuizResultsScreen.kt:24-28 | cleaning never lengthens the entry list |
| QuizResultsScreen.CleanResultsMembers | app/src/main/java/com/chakrawellness/app/screens/QuizResultsScreen.kt:24-28 | an entry is in the cleaned list exactly when some non-timestamp entry has that key and scores that value |
| QuizResultsScreen.CleanResultsAppend | app/src/main/java/com/chakrawellness/app/screens/QuizResultsScreen.kt:24-25 | cleaning keeps the relative order of the entries |
| QuizResultsScreen.ChakraScoreIgnoresNonNumbers | app/src/main/java/com/chakrawellness/app/screens/QuizResultsScreen.kt:26-27 | adding a non-numeric answer does not change a chakra's score |
| QuizResultsScreen.MostImbalanced | app/src/main/java/com/chakrawellness/app/screens/QuizResultsScreen.kt:33 | "None" when no score is positive; otherwise the key of the first entry holding the greatest score |
| QuizScreen.QuestionTableShape | app/src/main/java/com/chakrawellness/app/screens/QuizScreen.kt:43-51 | the question table lists the seven chakras in Root-to-Crown order with 3, 3, 3, 3, 2, 2 and 2 questions, no question repeated within a chakra |
| QuizScreen.InitialResponsesShape | app/src/main/java/com/chakrawellness/app/screens/QuizScreen.kt:28-39 | the screen starts with the seven chakras, each with no recorded answer |
| QuizScreen.MoveSlider | app/src/main/java/com/chakrawellness/app/screens/QuizScreen.kt:139-143 | the chakra set never changes; every other chakra is left exactly as it was; the moved chakra gains only the moved question, which now holds the value, and keeps its other answers; an unknown chakra is a no-op |
| QuizScreen.Unanswered | app/src/main/java/com/chakrawellness/app/screens/QuizScreen.kt:76-84 | every recorded 0 is listed, and nothing is listed when all answers are slider positions |
| QuizScreen.MovesKeepAnswersInRange | app/src/main/java/com/chakrawellness/app/screens/QuizScreen.kt:142-145 | any sequence of slider moves keeps every recorded answer in 1..5 and the chakra set fixed |
| QuizScreen.OnSubmit | app/src/main/java/com/chakrawellness/app/screens/QuizScreen.kt:86-91 | submission goes ahead exactly when the unanswered list is empty |
| QuizScreen.SubmitAfterAnyMoves | app/src/main/java/com/chakrawellness/app/screens/QuizScreen.kt:76-91 | after any slider moves the unanswered list is empty and the quiz is submitted at once |
| QuizScreen.UntouchedQuizSubmitsNoAnswers | app/src/main/java/com/chakrawellness/app/screens/QuizScreen.kt:28-39 | an untouched quiz is submitted at once, with no answers recorded |
| QuizScreen.SelectedLabel | app/src/main/java/com/chakrawellness/app/screens/QuizScreen.kt:128-162 | the label index stays inside the five labels; 1 shows "None" and 5 shows "Extreme", and only they do |
| QuizScreen.LabelsDistinct | app/src/main/java/com/chakrawellness/app/screens/QuizScreen.kt:128-162 | two slider positions show the same word exactly when they are the same position |
| QuizScreen.UntouchedSliderNotRecorded | app/src/main/java/com/chakrawellness/app/screens/QuizScreen.kt:126-143 | whatever other sliders are moved, a question whose own slider is never touched shows 1 but has no recorded answer |
| QuizScreen.StartingResponses | app/src/main/java/com/chakrawellness/app/screens/QuizScreen.kt:43-51 | every table question is recorded at the starting position 1, over the same chakras |
| QuizScreen.MovesKeepShownAnswer | app/src/main/java/com/chakrawellness/app/screens/QuizScreen.kt:139-143 | once a question's recorded answer matches what its slider shows, any moves keep them matching |
| QuizScreen.CorrectedQuizAnswersEveryQuestion | app/src/main/java/com/chakrawellness/app/screens/QuizScreen.kt:126-145 | with starting positions recorded, every table question is answered, in 1..5, and equal to what its slider shows after any moves |
| QuizScreen.SubmitQuiz | app/src/main/java/com/chakrawellness/app/screens/QuizScreen.kt:166-189 | an empty user id leaves the stored document unchanged; otherwise the stored results read back as the override merge with the answers |
| CreateProfileScreen.SaveProfile | app/src/main/java/com/chakrawellness/app/screens/CreateProfileScreen.kt:96-120 | "All fields are required!" exactly when a field is empty; otherwise a profile with the name verbatim and each number field converted |
| CreateProfileScreen.FieldRoundTrip | app/src/main/java/com/chakrawellness/app/screens/CreateProfileScreen.kt:99-102 | a typed Int is stored as itself |
| CreateProfileScreen.NonNumbersBecomeZero | app/src/main/java/com/chakrawellness/app/screens/CreateProfileScreen.kt:99-102 | a word, a blank, a lone minus sign and a number with a leading blank all store 0 |
| CreateProfileScreen.PlusSignAccepted | app/src/main/java/com/chakrawellness/app/screens/CreateProfileScreen.kt:99-102 | "+7" stores 7: a leading plus sign is accepted |
| CreateProfileScreen.IntRangeEdges | app/src/main/java/com/chakrawellness/app/screens/CreateProfileScreen.kt:99-102 | "2147483648" overflows and stores 0, while "-2147483648" stores Int.MIN_VALUE |
| CreateProfileScreen.ValidationChecksEmptinessOnly | app/src/main/java/com/chakrawellness/app/screens/CreateProfileScreen.kt:96-119 | a filled form of non-numbers yields a zero profile; any empty field is refused |
| CreateAccountScreen.CreateAccount | app/src/main/java/com/chakrawellness/app/screens/CreateAccountScreen.kt:75-102 | an account is requested exactly when all three fields are filled and the passwords match; an empty field gives "All fields are required!", a mismatch "Passwords do not match!" |
| CreateAccountScreen.EmptinessBeforeMismatch | app/src/main/java/com/chakrawellness/app/screens/CreateAccountScreen.kt:75-76 | two empty passwords are reported as missing fields, not as a mismatch |
| CreateAccountScreen.AnyEmailAccepted | app/src/main/java/com/chakrawellness/app/screens/CreateAccountScreen.kt:75-77 | any non-empty email with matching passwords requests the account |

## Left out

- Database I/O, because it is vendor SDK calls and asynchronous callbacks:
  - `getUserProfile`, `saveUserProfile`, `getLatestQuizResults`, `getQuizResults`,
    `saveProgress`, `getSavedProgress` and `getLightDurations`;
  - the snapshot reads and the transaction's atomicity and retries.
  - Only the pure merge and the read-back normalisation are modelled.
  - The document written after account creation (`profileCreated = false`) and the
    authentication call itself are also left out.
- Reading `timestamp` with `getLong` is left out. The stored value is a server timestamp, which
  reads back as a timestamp object rather than a number (and as nothing while the write is
  pending), so what that read yields is not modelled. `QuizResult.timestamp` is an unconstrained
  integer in the model.
- NFC, HTTP, navigation, toasts, logging, dialogs, animations and colours are not modelled,
  because they are presentation or platform plumbing. That includes `getChakraColor` and the
  bubble animation.
- The "Yes, Submit" button of the incomplete-quiz dialog is left out. It submits regardless, so
  it adds nothing to `QuizScreen.OnSubmit`.
- ChakraResultsScreen.Percentage: computed over exact reals, not 32-bit `Float`. For every total
  from 0 to a chakra's maximum the Float result equals total·100 div maximum, so the model agrees
  with the app on every total the quiz can produce. Above the maximum Float rounding departs from
  the exact value: by one for small totals (21/20·100 gives 104 rather than 105), and by more
  once the total passes 2^24, where Float no longer holds every integer (16777217/1·100 gives
  1677721600 rather than 1677721700). The saturation of the Int conversion is modelled.
- FirestoreUtils.LightDurations: computed over exact reals, not `Double`. The 21-minute identity
  holds exactly only without rounding.
- Dynamic.Dyn: has no floating-point variant, so a stored `Double` lies outside the model. The
  app's number casts would accept one and truncate it to an Int; the app's own writes store only
  integers, so that conversion is not modelled. `DTimestamp` stands for both a stored timestamp
  and the server-timestamp marker; the summary screen's filter drops only the former, but its
  input is already typed, so neither reaches it.
- Kotlin.ParseInt: accepts only the ASCII digits '0' to '9'. Kotlin's `toIntOrNull` also accepts
  other Unicode decimal digits.
- QuizScreen.Unanswered: a set of "chakra - question" labels rather than a newline-joined list in
  iteration order. Its ensures gives the direction that every recorded 0 is listed, and that
  nothing is listed when every answer is a slider position.
- QuizResultsScreen.CleanResults: its ensures states only the length bound. Membership and order
  are stated by `QuizResultsScreen.CleanResultsMembers` and `QuizResultsScreen.CleanResultsAppend`.
- Inconsistencies between files are modelled as written and not reconciled:
  - the maxima of `getMaxScoreForChakra` assume 6, 10, 5, 7, 4, 6 and 4 questions, while the
    quiz asks 3, 3, 3, 3, 2, 2 and 2 (stated by `QuizScreen.MaximaExceedQuestionTable`);
  - the call sites pass arguments that do not match the callee's parameters.
- The build configuration is not modelled.

## Findings

| source | as written | input that shows it | evidently intended | confidence | as-written member | corrected member |
|---|---|---|---|---|---|---|
| app/src/main/java/com/chakrawellness/app/screens/QuizScreen.kt:28-39, 126, 141-143 | each slider shows 1 from the start, but an answer is recorded only when its slider moves; the per-chakra maps start empty, so the `answer == 0` check at line 80 never fires | submit without moving the "Root – Fatigue" slider: no answer is saved for it, though the screen showed 1 | the starting position 1 is recorded, so every shown answer is submitted | not executed; medium | QuizScreen.UntouchedSliderNotRecorded | QuizScreen.CorrectedQuizAnswersEveryQuestion |
| app/src/main/java/com/chakrawellness/app/screens/ProfileScreen.kt:117-118 | the latest quiz is taken as the last element of the list and the previous as the one before it, but the list comes from `getQuizResults`, which orders by timestamp descending (FirestoreUtils.kt:268), so the last element is the oldest quiz | two quizzes, the newer totalling 5 for Root and the older 1: the view shows "Root: 1 (↑ Improved by 4)". Latent as shipped: `saveQuizResults` always writes the one document `QuizResults/{userId}` (FirestoreUtils.kt:85, 107), so the query returns at most one quiz unless another writer adds documents | the first element is the latest quiz and the second the previous one, giving "Root: 5 (↓ Worse by 4)" | not executed; low | ProfileScreen.OldestShownAsLatest | ProfileScreen.NewestAgainstPrevious |

=== FILE: chakra_results_screen.dfy ===
/** The scoring behind the results screen: each chakra's answers as a
    percentage of a fixed maximum, drawn as a bubble at a fixed height. */
module ChakraResultsScreen {
  import opened Kotlin
  import opened Sums
  import opened Chakras
  import opened FirestoreUtils

  /** `getMaxScoreForChakra`: the highest total the screen assumes a chakra's
      answers can reach, five points per question; an unknown name gets 1 so
      that the percentage never divides by zero. */
  function MaxScoreForChakra(name: string): (r: int)
    ensures r > 0
    ensures IsChakra(name) <==> r % 5 == 0
    ensures IsChakra(name) ==> 20 <= r <= 50
    ensures !IsChakra(name) ==> r == 1
  {
    if name == "Root" then 6 * 5
    else if name == "Sacral" then 10 * 5
    else if name == "Solar Plexus" then 5 * 5
    else if name == "Heart" then 7 * 5
    else if name == "Throat" then 4 * 5
    else if name == "Third Eye" then 6 * 5
    else if name == "Crown" then 4 * 5
    else 1
  }

  /** The maxima chakra by chakra, Root to Crown: five points for each of 6,
      10, 5, 7, 4, 6 and 4 questions. */
  lemma MaxScoreTable()
    ensures forall i | 0 <= i < |Names| :: MaxScoreForChakra(Names[i]) == 5 * [6, 10, 5, 7, 4, 6, 4][i]
  {
  }

  /** Rounding toward zero: the fraction dropped. */
  function Truncate(x: real): (n: int)
    ensures 0.0 <= x ==> n as real <= x < n as real + 1.0
    ensures x < 0.0 ==> n as real - 1.0 < x <= n as real
  {
    if x >= 0.0 then x.Floor else -((-x).Floor)
  }

  /** Converting a float to an Int: the fraction is dropped, and a value
      beyond the Int range saturates at its nearer end. */
  function TruncateToInt(x: real): (n: Int32)
    ensures 0.0 <= x < IntMax as real + 1.0 ==> n as real <= x < n as real + 1.0
    ensures IntMin as real - 1.0 < x < 0.0 ==> n as real - 1.0 < x <= n as real
    ensures x >= IntMax as real + 1.0 ==> n == IntMax
    ensures x <= IntMin as real - 1.0 ==> n == IntMin
  {
    var t := Truncate(x);
    if t > IntMax then IntMax else if t < IntMin then IntMin else t
  }

  lemma RealQuotientFloor(n: nat, m: int)
    requires m > 0
    ensures Truncate(n as real / m as real) == n / m
  {
    var q, r := n / m, n % m;
    QuotientSplit(n, m, q, r);
  }

  /** n/m as a real is the whole quotient plus a fraction in [0, 1). */
  lemma QuotientSplit(n: int, m: int, q: int, r: int)
    requires m > 0 && n == q * m + r && 0 <= r < m
    ensures n as real / m as real == q as real + r as real / m as real
    ensures 0.0 <= r as real / m as real < 1.0
  {
  }

  /** The imbalance percentage: the answers' total over the chakra's maximum,
      times 100, converted to an Int; 0 when the maximum is not positive. */
  function Percentage(actual: int, maxScore: int): (p: Int32)
    ensures maxScore <= 0 || actual == 0 ==> p == 0
    ensures 0 < maxScore && 0 <= actual && actual * 100 / maxScore <= IntMax ==> p == actual * 100 / maxScore
    ensures 0 < maxScore && 0 <= actual && actual * 100 / maxScore > IntMax ==> p == IntMax
    ensures 0 <= actual <= maxScore ==> 0 <= p <= 100
    ensures 0 < maxScore && actual == maxScore ==> p == 100
  {
    if maxScore > 0 then
      var x := (actual as real / maxScore as real) * 100.0;
      if actual >= 0 then PercentageExact(actual, maxScore); TruncateToInt(x)
      else TruncateToInt(x)
    else 0
  }

  /** For a non-negative total the truncated quotient is integer division,
      which stays within 100 up to the maximum; beyond the Int range the
      conversion saturates. */
  lemma PercentageExact(actual: int, maxScore: int)
    requires 0 <= actual && 0 < maxScore
    ensures Truncate((actual as real / maxScore as real) * 100.0) == actual * 100 / maxScore
    ensures actual * 100 / maxScore <= IntMax ==>
              TruncateToInt((actual as real / maxScore as real) * 100.0) == actual * 100 / maxScore
    ensures actual * 100 / maxScore > IntMax ==>
              TruncateToInt((actual as real / maxScore as real) * 100.0) == IntMax
    ensures actual <= maxScore ==> actual * 100 / maxScore <= 100
    ensures actual == maxScore ==> actual * 100 / maxScore == 100
  {
    ScaleQuotient(actual, maxScore);
    RealQuotientFloor(actual * 100, maxScore);
    if actual <= maxScore {
      MulMonotone(100, actual, maxScore);
      DivMonotone(actual * 100, maxScore * 100, maxScore);
      WholeHundred(maxScore);
    }
  }

  lemma ScaleQuotient(a: int, m: int)
    requires m > 0
    ensures (a as real / m as real) * 100.0 == (a * 100) as real / m as real
  {
  }

  lemma WholeHundred(m: int)
    requires m > 0
    ensures m * 100 / m == 100
  {
  }

  /** A higher total never shows a lower percentage. */
  lemma PercentageMonotone(a: int, b: int, maxScore: int)
    requires 0 <= a <= b && maxScore > 0
    ensures Percentage(a, maxScore) <= Percentage(b, maxScore)
  {
    assert a * 100 <= b * 100;
    DivMonotone(a * 100, b * 100, maxScore);
  }

  lemma DivMonotone(x: int, y: int, m: int)
    requires x <= y && m > 0
    ensures x / m <= y / m
  {
    var qx, qy := x / m, y / m;
    if qx > qy {
      MulMonotone(m, qy + 1, qx);
      assert false;
    }
  }

  lemma MulMonotone(m: int, a: int, b: int)
    requires m > 0 && a <= b
    ensures m * a <= m * b
  {
  }

  /** A bubble's position relative to the centre of the silhouette. */
  datatype Offset = Offset(x: int, y: int)

  /** `getChakraOffset`: the chakras stacked in a column, Crown at the top,
      70 units apart; an unknown name sits at the centre. */
  function ChakraOffset(name: string): (o: Offset)
    ensures o.x == 0
    ensures !IsChakra(name) <==> o == Offset(0, 0)
    ensures IsChakra(name) ==> -240 <= o.y <= 180 && (o.y - 180) % 70 == 0
  {
    if name == "Crown" then Offset(0, -240)
    else if name == "Third Eye" then Offset(0, -170)
    else if name == "Throat" then Offset(0, -100)
    else if name == "Heart" then Offset(0, -30)
    else if name == "Solar Plexus" then Offset(0, 40)
    else if name == "Sacral" then Offset(0, 110)
    else if name == "Root" then Offset(0, 180)
    else Offset(0, 0)
  }

  /** The i-th chakra from the base sits 70·i units above Root, so the column
      follows the chakras' order and no two chakras share a position. */
  lemma OffsetsFollowChakraOrder()
    ensures forall i | 0 <= i < |Names| :: ChakraOffset(Names[i]) == Offset(0, 180 - 70 * i)
    ensures forall i, j | 0 <= i < j < |Names| :: ChakraOffset(Names[j]).y < ChakraOffset(Names[i]).y
  {
  }

  /** What the screen draws for one chakra. */
  datatype Bubble = Bubble(percentage: int, offset: Offset)

  /** One bubble per chakra of the results, from the sum of its answers. */
  ghost function ResultBubbles(results: ChakraResults): (b: map<string, Bubble>)
    ensures b.Keys == results.Keys
    ensures forall c | c in b :: b[c].offset.x == 0
  {
    map c | c in results :: Bubble(Percentage(IntSum(results[c]), MaxScoreForChakra(c)), ChakraOffset(c))
  }

  /** When a chakra's answers are slider values (1 to 5) and there are no more
      of them than its maximum allows, its bubble shows between 0 and 100
      percent, and exactly 100 when every answer is 5 and the count fills the
      maximum. */
  lemma BubblePercentageBounded(results: ChakraResults, c: string)
    requires c in results
    requires forall q | q in results[c] :: 1 <= results[c][q] <= 5
    requires 5 * |results[c]| <= MaxScoreForChakra(c)
    ensures 0 <= ResultBubbles(results)[c].percentage <= 100
    ensures (forall q | q in results[c] :: results[c][q] == 5) && 5 * |results[c]| == MaxScoreForChakra(c)
            ==> ResultBubbles(results)[c].percentage == 100
  {
    var s: map<string, int> := results[c];
    MapSumBounds(s, 1, 5);
    assert 0 <= MapSum(s) <= 5 * |s| <= 50;
    assert IntSum(s) == MapSum(s);
    if (forall q | q in s :: s[q] == 5) {
      MapSumBounds(s, 5, 5);
    }
  }
}

=== FILE: chakras.dfy ===
/** The seven chakra names the screens spell out, from the base of the spine up. */
module Chakras {

  const Names: seq<string> :=
    ["Root", "Sacral", "Solar Plexus", "Heart", "Throat", "Third Eye", "Crown"]

  predicate IsChakra(name: string) {
    name in Names
  }
}

=== FILE: create_account_screen.dfy ===
/** The "Create Account" button: all three fields are required, then the two
    passwords must match; only then is an account requested. */
module CreateAccountScreen {

  const AllFieldsRequired: string := "All fields are required!"
  const PasswordsDoNotMatch: string := "Passwords do not match!"

  /** What pressing the button does. */
  datatype AccountStep =
    | RequestAccount(email: string, password: string)
    | ShowError(message: string)

  function CreateAccount(email: string, password: string, confirmPassword: string): (step: AccountStep)
    ensures step.RequestAccount? <==>
              email != [] && password != [] && confirmPassword != [] && password == confirmPassword
    ensures step.RequestAccount? ==> step.email == email && step.password == password
    ensures (email == [] || password == [] || confirmPassword == []) ==> step == ShowError(AllFieldsRequired)
    ensures email != [] && password != [] && confirmPassword != [] && password != confirmPassword
            ==> step == ShowError(PasswordsDoNotMatch)
  {
    if email != [] && password != [] && confirmPassword != [] then
      if password == confirmPassword then RequestAccount(email, password)
      else ShowError(PasswordsDoNotMatch)
    else ShowError(AllFieldsRequired)
  }

  /** The emptiness check comes first: two empty passwords are equal, yet the
      message is about missing fields, never about a mismatch. */
  lemma EmptinessBeforeMismatch(email: string)
    ensures CreateAccount(email, "", "") == ShowError(AllFieldsRequired)
  {
  }

  /** The email's format is not checked: any non-empty text is passed on. */
  lemma AnyEmailAccepted(email: string, password: string)
    requires email != [] && password != []
    ensures CreateAccount(email, password, password) == RequestAccount(email, password)
  {
  }

  /** The two messages are different, so the user can tell the cases apart. */
  lemma MessagesDistinct()
    ensures AllFieldsRequired != PasswordsDoNotMatch
  {
  }
}

=== FILE: create_profile_screen.dfy ===
/** The "Save Profile" button: every field must be filled in; the four number
    fields are parsed as Ints, and a field that does not parse counts as 0. */
module CreateProfileScreen {
  import opened Wrappers
  import opened Kotlin
  import opened Models

  const AllFieldsRequired: string := "All fields are required!"

  /** A number field as the profile stores it: its Int value when the text
      parses as one, otherwise 0. */
  function FieldToInt(field: string): (n: Int32)
    ensures ParseInt(field).Some? ==> n == ParseInt(field).value
    ensures ParseInt(field).None? ==> n == 0
  {
    match ParseInt(field)
    case Some(v) => v
    case None => 0
  }

  /** The five text fields of the form. */
  datatype ProfileForm = ProfileForm(
    name: string,
    age: string,
    weight: string,
    heightFeet: string,
    heightInches: string)

  predicate AllFilled(form: ProfileForm) {
    form.name != [] && form.age != [] && form.weight != [] && form.heightFeet != [] && form.heightInches != []
  }

  /** The profile the button builds, or the message it shows. Only emptiness is
      checked: text that is not a number passes and is stored as 0. */
  function SaveProfile(form: ProfileForm): (r: Result<UserProfile, string>)
    ensures r.Failure? <==> !AllFilled(form)
    ensures r.Failure? ==> r.error == AllFieldsRequired
    ensures r.Success? ==> r.value.name == form.name
    ensures r.Success? ==> r.value.age == FieldToInt(form.age) && r.value.weight == FieldToInt(form.weight)
                           && r.value.heightFeet == FieldToInt(form.heightFeet)
                           && r.value.heightInches == FieldToInt(form.heightInches)
  {
    if AllFilled(form) then
      Success(UserProfile(
        form.name,
        FieldToInt(form.age),
        FieldToInt(form.weight),
        FieldToInt(form.heightFeet),
        FieldToInt(form.heightInches)))
    else Failure(AllFieldsRequired)
  }

  /** A number typed the way the profile screen shows it is stored unchanged. */
  lemma FieldRoundTrip(v: Int32)
    ensures FieldToInt(IntToString(v)) == v
  {
    ParseIntToString(v);
  }

  /** Text that passes the emptiness check but is not a decimal literal is
      stored as 0: a word, a blank, a lone sign, a number after a blank. */
  lemma NonNumbersBecomeZero()
    ensures FieldToInt("abc") == 0
    ensures FieldToInt(" ") == 0
    ensures FieldToInt("-") == 0
    ensures FieldToInt(" 42") == 0
  {
    assert !IsDigit("abc"[0]) && !IsDigit(" "[0]) && !IsDigit(" 42"[0]);
  }

  /** A leading '+' is accepted. */
  lemma PlusSignAccepted()
    ensures FieldToInt("+7") == 7
  {
    assert "+7"[1..] == "7";
    assert "7"[..0] == "";
  }

  /** One past the largest Int does not fit and is stored as 0; the smallest
      Int does fit. */
  lemma IntRangeEdges()
    ensures FieldToInt("2147483648") == 0
    ensures FieldToInt("-2147483648") == IntMin
  {
    OnePastIntMax();
    assert "-2147483648"[1..] == "2147483648";
  }

  lemma OnePastIntMax()
    ensures AllDigits("2147483648") && DigitsValue("2147483648") == 2147483648
  {
    LeadingDigits();
    assert "2147483648"[..9] == "214748364";
    assert "214748364"[..8] == "21474836";
    assert "21474836"[..7] == "2147483";
    assert "2147483"[..6] == "214748";
    assert "214748"[..5] == "21474";
  }

  lemma LeadingDigits()
    ensures AllDigits("21474") && DigitsValue("21474") == 21474
  {
    assert "21474"[..4] == "2147";
    assert "2147"[..3] == "214";
    assert "214"[..2] == "21";
    assert "21"[..1] == "2";
    assert "2"[..0] == "";
  }

  /** A form with a field left empty is refused whatever the other fields
      hold, and a filled form of non-numbers still yields a profile. */
  lemma ValidationChecksEmptinessOnly(name: string)
    requires name != []
    ensures SaveProfile(ProfileForm(name, "abc", " ", "x", "-")) ==
            Success(UserProfile(name, 0, 0, 0, 0))
    ensures SaveProfile(ProfileForm("", "30", "150", "5", "10")) == Failure(AllFieldsRequired)
  {
    NonNumbersBecomeZero();
    assert !IsDigit("x"[0]);
  }
}

=== FILE: dynamic.dfy ===
/** Values as the document database's client hands them to the app: untyped
    (`Any` in the source), to be cast with `as?` before use. */
module Dynamic {
  import opened Kotlin

  /** A stored value. `DNum` is an integral number (the database keeps 64-bit
      integers); `DTimestamp` is a timestamp or the server-timestamp marker
      (the app's timestamp filter recognises only the former, but the marker
      never reaches it: that screen's input is already typed);
      `DOther` stands for the values the app's casts reject (booleans, lists,
      null). A stored floating-point number is outside this type. */
  datatype Dyn =
    | DMap(entries: map<string, Dyn>)
    | DNum(n: int)
    | DString(s: string)
    | DTimestamp
    | DOther

  /** A value cast to a string-keyed map, with the empty map when the cast
      fails. */
  function AsMap(v: Dyn): map<string, Dyn>
  {
    if v.DMap? then v.entries else map[]
  }

  /** A document field read as a map: an absent field and a field that is
      not a map both read as the empty map. */
  function FieldMap(doc: map<string, Dyn>, name: string): map<string, Dyn>
  {
    if name in doc then AsMap(doc[name]) else map[]
  }

  /** A number converted to an Int (wrapping into 32 bits); 0 for anything
      that is not a number. */
  function NumberOrZero(v: Dyn): Int32
  {
    if v.DNum? then WrapToInt32(v.n) else 0
  }

  /** A question-to-answer map as the database stores it. */
  function FromScores(s: map<string, int>): (d: map<string, Dyn>)
    ensures d.Keys == s.Keys
  {
    map q | q in s :: DNum(s[q])
  }

  /** A chakra-to-answers map as the database stores it. */
  function FromResults(r: map<string, map<string, int>>): (d: map<string, Dyn>)
    ensures d.Keys == r.Keys
  {
    map c | c in r :: DMap(FromScores(r[c]))
  }
}

=== FILE: firestore_utils.dfy ===
/** The pure logic of the data-access object: the read-modify-write merge that
    `saveQuizResults` runs inside its transaction, the normalisation applied to
    every quiz document read back, and the light-duration allocation. */
module FirestoreUtils {
  import opened Wrappers
  import opened Kotlin
  import opened Dynamic
  import opened Sums

  /** Question to answer: a typed `Map<String, Int>`. */
  type Scores = map<string, Int32>

  /** Chakra to its answers: a typed `Map<String, Map<String, Int>>`. */
  type ChakraResults = map<string, Scores>

  /** The fields of a stored document; a document that does not exist has none. */
  type Document = map<string, Dyn>

  const NotAuthenticated: string := "User is not authenticated"

  // ------------------------------------------------------------ the merge

  /** What the merge starts from for one chakra: the stored value when it is a
      map, nothing otherwise. The source's cast to `Map<String, Int>` is
      unchecked, so a stored map qualifies whatever its values are. */
  function StoredAnswers(existing: map<string, Dyn>, chakra: string): map<string, Dyn>
  {
    if chakra in existing then AsMap(existing[chakra]) else map[]
  }

  /** The body of the `saveQuizResults` transaction: every chakra of `incoming`
      becomes its stored answers overridden by the new ones; every other stored
      chakra is kept as it was. */
  function MergeQuizResults(existing: map<string, Dyn>, incoming: ChakraResults): (merged: map<string, Dyn>)
    ensures merged.Keys == existing.Keys + incoming.Keys
    ensures forall c | c in existing && c !in incoming :: merged[c] == existing[c]
    ensures forall c | c in incoming ::
      merged[c].DMap? && merged[c].entries.Keys == StoredAnswers(existing, c).Keys + incoming[c].Keys
    ensures forall c, q | c in incoming && q in incoming[c] ::
      merged[c].entries[q] == DNum(incoming[c][q])
    ensures forall c, q | c in incoming && q in StoredAnswers(existing, c) && q !in incoming[c] ::
      merged[c].entries[q] == StoredAnswers(existing, c)[q]
  {
    map c | c in existing.Keys + incoming.Keys ::
      if c in incoming then DMap(StoredAnswers(existing, c) + FromScores(incoming[c])) else existing[c]
  }

  /** Merging the same answers a second time changes nothing. */
  lemma MergeIdempotent(existing: map<string, Dyn>, incoming: ChakraResults)
    ensures MergeQuizResults(MergeQuizResults(existing, incoming), incoming)
         == MergeQuizResults(existing, incoming)
  {
    var once := MergeQuizResults(existing, incoming);
    var twice := MergeQuizResults(once, incoming);
    forall c | c in twice
      ensures c in once && twice[c] == once[c]
    {
      if c in incoming {
        RemergedChakra(existing, incoming, c);
      }
    }
  }

  /** One re-answered chakra of `MergeIdempotent`. */
  lemma RemergedChakra(existing: map<string, Dyn>, incoming: ChakraResults, c: string)
    requires c in incoming
    ensures MergeQuizResults(MergeQuizResults(existing, incoming), incoming)[c]
         == MergeQuizResults(existing, incoming)[c]
  {
    var once := MergeQuizResults(existing, incoming);
    assert StoredAnswers(once, c) == StoredAnswers(existing, c) + FromScores(incoming[c]);
    OverrideTwice(StoredAnswers(existing, c), FromScores(incoming[c]));
  }

  /** Overriding with the same map twice is overriding once. */
  lemma OverrideTwice(m: map<string, Dyn>, added: map<string, Dyn>)
    ensures m + added + added == m + added
  {
  }

  /** `saveQuizResults`: with no signed-in user it reports the error and writes
      nothing; otherwise the new document holds the user id, the merged results
      and a server timestamp, and nothing else (the write replaces the stored
      document wholesale). */
  function SaveQuizResults(userId: string, stored: Document, incoming: ChakraResults): (r: Result<Document, string>)
    ensures r.Failure? <==> userId == []
    ensures r.Failure? ==> r.error == NotAuthenticated
    ensures r.Success? ==> r.value.Keys == {"userId", "quizResults", "timestamp"}
    ensures r.Success? ==> r.value["userId"] == DString(userId) && r.value["timestamp"] == DTimestamp
    ensures r.Success? ==> r.value["quizResults"].DMap?
    ensures r.Success? ==> r.value["quizResults"].entries.Keys == FieldMap(stored, "quizResults").Keys + incoming.Keys
  {
    if userId == [] then Failure(NotAuthenticated)
    else
      var merged := MergeQuizResults(FieldMap(stored, "quizResults"), incoming);
      Success(map["userId" := DString(userId), "quizResults" := DMap(merged), "timestamp" := DTimestamp])
  }

  // ----------------------------------------------------- normalisation

  /** One stored chakra value as the app reads it back: each entry of a map
      becomes an `Int` (a number through `toInt()`, anything else 0); a value
      that is not a map becomes the empty map. */
  function NormaliseScores(v: Dyn): (s: Scores)
    ensures s.Keys == AsMap(v).Keys
    ensures !v.DMap? ==> s == map[]
    ensures forall q | q in s && AsMap(v)[q].DNum? && IntMin <= AsMap(v)[q].n <= IntMax ::
      s[q] == AsMap(v)[q].n
    ensures forall q | q in s && !AsMap(v)[q].DNum? :: s[q] == 0
  {
    map q | q in AsMap(v) :: NumberOrZero(AsMap(v)[q])
  }

  /** The conversion `getLatestQuizResults` and `getQuizResults` apply to a
      document's raw quiz results: same chakras, each normalised. */
  function NormaliseResults(raw: map<string, Dyn>): (r: ChakraResults)
    ensures r.Keys == raw.Keys
    ensures forall c | c in raw && !raw[c].DMap? :: r[c] == map[]
    ensures forall c | c in raw && raw[c].DMap? :: r[c].Keys == raw[c].entries.Keys
  {
    map c | c in raw :: NormaliseScores(raw[c])
  }

  /** The typed quiz results of a stored document; a missing or ill-typed
      "quizResults" field reads as no results. */
  function ReadQuizResults(doc: Document): (r: ChakraResults)
    ensures r.Keys == FieldMap(doc, "quizResults").Keys
  {
    NormaliseResults(FieldMap(doc, "quizResults"))
  }

  /** Typed answers survive being stored and normalised back. */
  lemma NormaliseFromResults(results: ChakraResults)
    ensures NormaliseResults(FromResults(results)) == results
  {
    var back := NormaliseResults(FromResults(results));
    forall c | c in results
      ensures back[c] == results[c]
    {
      assert back[c].Keys == results[c].Keys;
    }
  }

  /** Reference semantics of the merge on typed answers: per chakra, a map
      union in which the newer answer wins. */
  function OverrideMerge(older: ChakraResults, newer: ChakraResults): (r: ChakraResults)
    ensures r.Keys == older.Keys + newer.Keys
  {
    map c | c in older.Keys + newer.Keys ::
      if c in newer then (if c in older then older[c] else map[]) + newer[c] else older[c]
  }

  /** Normalising a stored map after new answers were added on top of it gives
      the normalised old answers overridden by the new ones. */
  lemma NormaliseOverride(prior: map<string, Dyn>, s: Scores)
    ensures NormaliseScores(DMap(prior + FromScores(s))) == NormaliseScores(DMap(prior)) + s
  {
    var lhs := NormaliseScores(DMap(prior + FromScores(s)));
    var rhs := NormaliseScores(DMap(prior)) + s;
    assert lhs.Keys == rhs.Keys;
    forall q | q in lhs
      ensures lhs[q] == rhs[q]
    {
    }
  }

  /** Reading a document back after `saveQuizResults` gives exactly the typed
      override-merge of what could be read before and the new answers. */
  lemma SaveThenRead(userId: string, stored: Document, incoming: ChakraResults)
    requires userId != []
    ensures SaveQuizResults(userId, stored, incoming).Success?
    ensures ReadQuizResults(SaveQuizResults(userId, stored, incoming).value)
         == OverrideMerge(ReadQuizResults(stored), incoming)
  {
    var before := FieldMap(stored, "quizResults");
    var doc := SaveQuizResults(userId, stored, incoming).value;
    assert FieldMap(doc, "quizResults") == MergeQuizResults(before, incoming);
    MergeThenNormalise(before, incoming);
  }

  /** Normalising merged results is the typed override merge of the
      normalised stored results and the new answers. */
  lemma MergeThenNormalise(before: map<string, Dyn>, incoming: ChakraResults)
    ensures NormaliseResults(MergeQuizResults(before, incoming))
         == OverrideMerge(NormaliseResults(before), incoming)
  {
    var after := NormaliseResults(MergeQuizResults(before, incoming));
    var expected := OverrideMerge(NormaliseResults(before), incoming);
    forall c | c in after
      ensures c in expected && after[c] == expected[c]
    {
      if c in incoming {
        MergedChakraNormalised(before, incoming, c);
      } else {
        KeptChakraNormalised(before, incoming, c);
      }
    }
  }

  /** One re-answered chakra of `MergeThenNormalise`. */
  lemma MergedChakraNormalised(before: map<string, Dyn>, incoming: ChakraResults, c: string)
    requires c in incoming
    ensures NormaliseResults(MergeQuizResults(before, incoming))[c]
         == OverrideMerge(NormaliseResults(before), incoming)[c]
  {
    var prior := StoredAnswers(before, c);
    var previous := NormaliseResults(before);
    NormaliseOverride(prior, incoming[c]);
    assert MergeQuizResults(before, incoming)[c] == DMap(prior + FromScores(incoming[c]));
    assert NormaliseScores(DMap(prior)) == (if c in previous then previous[c] else map[]);
  }

  /** One untouched chakra of `MergeThenNormalise`. */
  lemma KeptChakraNormalised(before: map<string, Dyn>, incoming: ChakraResults, c: string)
    requires c in before && c !in incoming
    ensures NormaliseResults(MergeQuizResults(before, incoming))[c]
         == OverrideMerge(NormaliseResults(before), incoming)[c]
  {
    assert MergeQuizResults(before, incoming)[c] == before[c];
  }

  // ------------------------------------------------- light durations

  const MinTime: real := 1.0
  const MaxTime: real := 5.0
  /** The minutes the light durations are scaled to before clamping. */
  const Budget: real := 21.0

  /** Clamping into the closed interval from `lo` to `hi`. */
  function CoerceIn(x: real, lo: real, hi: real): (r: real)
    requires lo <= hi
    ensures lo <= r <= hi
    ensures lo <= x <= hi ==> r == x
    ensures x < lo ==> r == lo
    ensures hi < x ==> r == hi
  {
    if x < lo then lo else if x > hi then hi else x
  }

  /** Step 1 of `calculateLightDurations`: each chakra's answers summed as an `Int`. */
  ghost function ChakraTotals(q: ChakraResults): (t: map<string, int>)
    ensures t.Keys == q.Keys
  {
    map c | c in q :: IntSum(q[c])
  }

  /** A chakra's slice of the budget, in proportion to its score, before clamping. */
  function Share(score: int, total: real): real
    requires total > 0.0
  {
    (score as real / total) * Budget
  }

  /** `calculateLightDurations`: when the scores add up to something positive,
      each chakra's proportional share of 21 minutes clamped to [1, 5];
      otherwise one minute each. */
  ghost function LightDurations(q: ChakraResults): (d: map<string, real>)
    ensures d.Keys == q.Keys
    ensures MapSum(ChakraTotals(q)) > 0 ==> forall c | c in d :: MinTime <= d[c] <= MaxTime
    ensures MapSum(ChakraTotals(q)) <= 0 ==> forall c | c in d :: d[c] == MinTime
  {
    var totals := ChakraTotals(q);
    var total := MapSum(totals) as real;
    if total > 0.0 then map c | c in totals :: CoerceIn(Share(totals[c], total), MinTime, MaxTime)
    else map c | c in totals :: MinTime
  }

  /** Shares of two scores add up to the share of their sum. */
  lemma ShareAdditive(total: real)
    requires total > 0.0
    ensures forall a: int, b: int :: Share(a, total) + Share(b, total) == Share(a + b, total)
  {
    forall a: int, b: int
      ensures Share(a, total) + Share(b, total) == Share(a + b, total)
    {
      assert (a + b) as real / total == a as real / total + b as real / total;
    }
  }

  /** Before clamping, the shares add up to exactly the 21-minute budget. */
  lemma SharesFillBudget(q: ChakraResults)
    requires MapSum(ChakraTotals(q)) > 0
    ensures var t := ChakraTotals(q);
            RealMapSum(map c | c in t :: Share(t[c], MapSum(t) as real)) == Budget
  {
    SharesSum(ChakraTotals(q));
  }

  lemma SharesSum(t: map<string, int>)
    requires MapSum(t) > 0
    ensures RealMapSum(map c | c in t :: Share(t[c], MapSum(t) as real)) == Budget
  {
    var total := MapSum(t) as real;
    var shares := map c | c in t :: Share(t[c], total);
    var g := (x: int) => Share(x, total);
    ShareAdditive(total);
    assert Additive(g);
    MapSumAdditive(t, shares, g);
    ShareOfWhole(MapSum(t));
  }

  /** A score's share of itself is the whole budget. */
  lemma ShareOfWhole(n: int)
    requires n > 0
    ensures Share(n, n as real) == Budget
  {
    assert n as real / n as real == 1.0;
  }

  lemma ShareMonotone(x: int, y: int, total: real)
    requires total > 0.0 && x <= y
    ensures Share(x, total) <= Share(y, total)
  {
    assert x as real / total <= y as real / total;
  }

  /** A chakra with a larger total never gets a shorter light duration. */
  lemma DurationsMonotone(q: ChakraResults, a: string, b: string)
    requires a in q && b in q
    requires ChakraTotals(q)[a] <= ChakraTotals(q)[b]
    ensures LightDurations(q)[a] <= LightDurations(q)[b]
  {
    var t := ChakraTotals(q);
    var total := MapSum(t) as real;
    if total > 0.0 {
      ShareMonotone(t[a], t[b], total);
    }
  }

  /** With no answers at all, every chakra gets the one-minute default. */
  lemma UnansweredGetsMinimum(q: ChakraResults)
    requires forall c | c in q :: q[c] == map[]
    ensures forall c | c in q :: LightDurations(q)[c] == MinTime
  {
    var t := ChakraTotals(q);
    forall c | c in q
      ensures t[c] == 0
    {
      assert MapSum(q[c]) == 0;
    }
    MapSumBounds(t, 0, 0);
  }

  /** Clamping can break the 21-minute total: a single answered chakra gets the
      whole budget as its share and is cut back to 5 minutes. */
  lemma ClampingBreaksBudget()
    ensures LightDurations(map["Root" := map["Fatigue" := 5]]) == map["Root" := MaxTime]
  {
    var q: ChakraResults := map["Root" := map["Fatigue" := 5]];
    MapSumSingleton("Fatigue", 5);
    var t := ChakraTotals(q);
    assert t == map["Root" := 5];
    MapSumSingleton("Root", 5);
    assert Share(5, 5.0) == Budget;
  }
}

=== FILE: kotlin.dfy ===
/** The parts of Kotlin's standard library the app relies on, with Kotlin's
    32-bit `Int` made explicit: the wrap-around of `Number.toInt()` and of Int
    arithmetic, `String.toIntOrNull()` and decimal rendering of an `Int`. */
module Kotlin {
  import opened Wrappers

  const IntMin: int := -0x8000_0000
  const IntMax: int := 0x7fff_ffff
  const Modulus: int := 0x1_0000_0000

  /** Values of Kotlin's `Int`. */
  type Int32 = x: int | IntMin <= x <= IntMax

  /** Keeps the low 32 bits of an integral number as a two's-complement `Int`:
      `Long.toInt()`, and the result of any chain of Int additions. */
  function WrapToInt32(n: int): (r: Int32)
    ensures IntMin <= n <= IntMax ==> r == n
    ensures (r - n) % Modulus == 0
  {
    (n - IntMin) % Modulus + IntMin
  }

  // ---------------------------------------------------------------- digits

  predicate IsDigit(c: char) {
    '0' <= c <= '9'
  }

  predicate AllDigits(s: string) {
    forall i | 0 <= i < |s| :: IsDigit(s[i])
  }

  function DigitValue(c: char): (d: nat)
    requires IsDigit(c)
    ensures d < 10
  {
    (c as int) - ('0' as int)
  }

  function DigitChar(d: nat): (c: char)
    requires d < 10
    ensures IsDigit(c) && DigitValue(c) == d
  {
    ((d + '0' as int) as char)
  }

  /** The number a run of decimal digits denotes, most significant digit first. */
  function DigitsValue(s: string): nat
    requires AllDigits(s)
  {
    if s == [] then 0 else DigitsValue(s[..|s| - 1]) * 10 + DigitValue(s[|s| - 1])
  }

  /** A longer run of digits never denotes a smaller number than its prefix. */
  lemma {:induction false} DigitsValuePrefix(s: string, j: nat)
    requires AllDigits(s) && j <= |s|
    ensures AllDigits(s[..j])
    ensures DigitsValue(s[..j]) <= DigitsValue(s)
    decreases |s|
  {
    if j < |s| {
      var t := s[..|s| - 1];
      assert AllDigits(t);
      assert t[..j] == s[..j];
      DigitsValuePrefix(t, j);
    } else {
      assert s[..j] == s;
    }
  }

  // ------------------------------------------------------ String.toIntOrNull

  /** What `String.toIntOrNull()` accepts before its range check: an optional
      leading '+' or '-' followed by at least one decimal digit, nothing else
      (no blanks, no separators). */
  predicate IsDecimalLiteral(s: string) {
    if |s| > 0 && (s[0] == '+' || s[0] == '-') then |s| > 1 && AllDigits(s[1..])
    else |s| > 0 && AllDigits(s)
  }

  function LiteralValue(s: string): int
    requires IsDecimalLiteral(s)
  {
    if s[0] == '-' then -(DigitsValue(s[1..]) as int)
    else if s[0] == '+' then DigitsValue(s[1..])
    else DigitsValue(s)
  }

  /** Reference meaning of `String.toIntOrNull()`: the literal's value when the
      text is a decimal literal whose value fits in an `Int`, otherwise null. */
  function ParseInt(s: string): Option<Int32>
  {
    if IsDecimalLiteral(s) && IntMin <= LiteralValue(s) <= IntMax then Some(LiteralValue(s))
    else None
  }

  /** `String.toIntOrNull()` as the library computes it: one left-to-right scan
      that gives up at the first non-digit or as soon as the magnitude read so
      far leaves the range of the sign's limit. */
  method ToIntOrNull(s: string) returns (r: Option<Int32>)
    ensures r == ParseInt(s)
  {
    if |s| == 0 {
      return None;
    }
    var start := 0;
    var negative := false;
    if s[0] < '0' {
      if |s| == 1 {
        return None;
      }
      start := 1;
      if s[0] == '-' {
        negative := true;
      } else if s[0] != '+' {
        return None;
      }
    }
    var limit: nat := if negative then -IntMin else IntMax;
    var magnitude: nat := 0;
    var i := start;
    while i < |s|
      invariant start <= i <= |s|
      invariant AllDigits(s[start..i])
      invariant magnitude == DigitsValue(s[start..i])
      invariant magnitude <= limit
    {
      if !IsDigit(s[i]) {
        NotAllDigits(s[start..], i - start);
        return None;
      }
      DigitsStep(s, start, i);
      magnitude := magnitude * 10 + DigitValue(s[i]);
      if magnitude > limit {
        OverflowPersists(s, start, i + 1, limit);
        return None;
      }
      i := i + 1;
    }
    assert s[start..i] == s[start..];
    return Some(if negative then -(magnitude as int) else magnitude);
  }

  lemma NotAllDigits(t: string, k: nat)
    requires k < |t| && !IsDigit(t[k])
    ensures !AllDigits(t)
  {
  }

  /** Reading one more digit: the value of the run grows by one decimal place. */
  lemma DigitsStep(s: string, start: nat, i: nat)
    requires start <= i < |s| && AllDigits(s[start..i]) && IsDigit(s[i])
    ensures AllDigits(s[start..i + 1])
    ensures DigitsValue(s[start..i + 1]) == DigitsValue(s[start..i]) * 10 + DigitValue(s[i])
  {
    assert s[start..i + 1][..i - start] == s[start..i];
  }

  /** Once a prefix of a digit run exceeds a bound, so does the whole run. */
  lemma OverflowPersists(s: string, start: nat, j: nat, limit: nat)
    requires start <= j <= |s| && AllDigits(s[start..j]) && DigitsValue(s[start..j]) > limit
    ensures AllDigits(s[start..]) ==> DigitsValue(s[start..]) > limit
  {
    if AllDigits(s[start..]) {
      assert s[start..][..j - start] == s[start..j];
      DigitsValuePrefix(s[start..], j - start);
    }
  }

  // ------------------------------------------------------------ Int.toString

  /** Decimal digits of a natural number, without leading zeros. */
  function NatToString(n: nat): (s: string)
    ensures |s| > 0 && AllDigits(s)
    ensures DigitsValue(s) == n
    ensures |s| > 1 ==> s[0] != '0'
  {
    if n < 10 then [DigitChar(n)]
    else
      var prefix := NatToString(n / 10);
      var s := prefix + [DigitChar(n % 10)];
      assert s[..|s| - 1] == prefix;
      s
  }

  /** How a string template renders an `Int`: a '-' before the digits of a
      negative number. */
  function IntToString(v: int): (s: string)
    ensures |s| > 0
    ensures v < 0 <==> s[0] == '-'
  {
    if v < 0 then "-" + NatToString(-v) else NatToString(v)
  }

  /** Reading back a rendered `Int` gives the same `Int`. */
  lemma ParseIntToString(v: Int32)
    ensures ParseInt(IntToString(v)) == Some(v)
  {
    var s := IntToString(v);
    if v < 0 {
      assert s[1..] == NatToString(-(v as int));
    } else {
      assert s == NatToString(v);
    }
  }
}

=== FILE: models.dfy ===
/** The app's two records. */
module Models {
  import opened Kotlin

  /** A user's profile; every field defaults to "" or 0. */
  datatype UserProfile = UserProfile(
    name: string,
    age: Int32,
    weight: Int32,
    heightFeet: Int32,
    heightInches: Int32)

  const DefaultProfile: UserProfile := UserProfile("", 0, 0, 0, 0)

  /** One quiz session: chakra name to question to answer, and when it was taken. */
  datatype QuizResult = QuizResult(quizResults: map<string, map<string, Int32>>, timestamp: int)

  const DefaultQuizResult: QuizResult := QuizResult(map[], 0)
}

=== FILE: profile_screen.dfy ===
/** The profile screen's quiz history view: the latest quiz's per-chakra
    totals, each compared with the quiz before it. */
module ProfileScreen {
  import opened Wrappers
  import opened Kotlin
  import opened Dynamic
  import opened Sums
  import opened Models
  import opened FirestoreUtils

  /** The map the screen keeps for each loaded quiz: its typed results and
      its timestamp under fixed keys. */
  function HistoryEntry(r: QuizResult): (e: map<string, Dyn>)
    ensures e.Keys == {"quizResults", "timestamp"}
  {
    map["quizResults" := DMap(FromResults(r.quizResults)), "timestamp" := DNum(r.timestamp)]
  }

  /** The screen's list of loaded quizzes, in the order they were loaded. */
  function History(results: seq<QuizResult>): (h: seq<map<string, Dyn>>)
    ensures |h| == |results|
    ensures forall i | 0 <= i < |h| :: h[i] == HistoryEntry(results[i])
  {
    seq(|results|, i requires 0 <= i < |results| => HistoryEntry(results[i]))
  }

  /** Whether a raw value is close enough to the map of Int maps that the
      source's unchecked cast claims for the summing to go through: every
      chakra a map and every answer a number. A number outside Int range is
      unboxed through its 32-bit conversion, so it is summed wrapped. */
  predicate IsTypedResults(m: map<string, Dyn>) {
    forall c | c in m ::
      && m[c].DMap?
      && forall q | q in m[c].entries :: m[c].entries[q].DNum?
  }

  /** `extractChakraScores`: each chakra's answers summed. A missing
      "quizResults" entry, or one that is not a map, gives no scores. The cast
      is unchecked, so a map holding a chakra that is not a map, or an answer
      that is not a number, gets through it and then makes the summing throw:
      that outcome is `None`. */
  ghost function ExtractChakraScores(entry: map<string, Dyn>): (r: Option<map<string, Int32>>)
    ensures !("quizResults" in entry && entry["quizResults"].DMap?) ==> r == Some(map[])
    ensures "quizResults" in entry && entry["quizResults"].DMap? ==>
              (r.Some? <==> IsTypedResults(entry["quizResults"].entries))
    ensures r.Some? ==> r.value.Keys == FieldMap(entry, "quizResults").Keys
  {
    if "quizResults" in entry && entry["quizResults"].DMap? then
      var raw := entry["quizResults"].entries;
      if IsTypedResults(raw) then Some(map c | c in raw :: IntSum(NormaliseScores(raw[c])))
      else None
    else Some(map[])
  }

  /** Each chakra's answers of a loaded quiz, summed as an Int. */
  ghost function Totals(r: QuizResult): (t: map<string, Int32>)
    ensures t.Keys == r.quizResults.Keys
  {
    map c | c in r.quizResults :: IntSum(r.quizResults[c])
  }

  /** On an entry the screen built from a loaded quiz, extraction never throws
      and gives one total per chakra: the Int sum of its answers, 0 for a
      chakra with no answers. */
  lemma ExtractFromHistoryEntry(r: QuizResult)
    ensures ExtractChakraScores(HistoryEntry(r)) == Some(Totals(r))
    ensures forall c | c in r.quizResults && r.quizResults[c] == map[] :: Totals(r)[c] == 0
  {
    var raw := FromResults(r.quizResults);
    var entry := HistoryEntry(r);
    assert entry["quizResults"] == DMap(raw);
    assert IsTypedResults(raw);
    NormaliseFromResults(r.quizResults);
    var extracted := map c | c in raw :: IntSum(NormaliseScores(raw[c]));
    forall c | c in raw
      ensures extracted[c] == Totals(r)[c]
    {
      assert NormaliseResults(raw)[c] == NormaliseScores(raw[c]);
    }
    assert extracted == Totals(r);
  }

  /** A stored answer beyond the Int range is not a cast failure: it is
      summed through its 32-bit conversion, so 2^31 counts as Int.MIN_VALUE. */
  lemma LongAnswerSummedWrapped()
    ensures ExtractChakraScores(map["quizResults" := DMap(map["Root" := DMap(map["q" := DNum(2147483648)])])])
         == Some(map["Root" := IntMin])
  {
    var answers := map["q" := DNum(2147483648)];
    var raw := map["Root" := DMap(answers)];
    assert IsTypedResults(raw);
    var scores := NormaliseScores(DMap(answers));
    assert scores == map["q" := IntMin];
    MapSumSingleton("q", IntMin);
    assert IntSum(scores) == IntMin;
    var entry := map["quizResults" := DMap(raw)];
    assert entry["quizResults"].entries == raw;
    var out := map c | c in raw :: IntSum(NormaliseScores(raw[c]));
    assert out == map["Root" := IntMin];
  }

  // ------------------------------------------------------ formatChange

  const WorsePrefix: string := "↓ Worse by "
  const ImprovedPrefix: string := "↑ Improved by "
  const NoChange: string := "No change"

  /** `formatChange`: a rise in score is worse, a fall is an improvement given
      by its size. The size is Kotlin's `-value`, which wraps for the most
      negative Int. */
  function FormatChange(v: Int32): (s: string)
    ensures v > 0 <==> |s| >= |WorsePrefix| && s[..|WorsePrefix|] == WorsePrefix
    ensures v < 0 <==> |s| >= |ImprovedPrefix| && s[..|ImprovedPrefix|] == ImprovedPrefix
    ensures v == 0 <==> s == NoChange
  {
    if v > 0 then
      var s := WorsePrefix + IntToString(v);
      Prefixed(WorsePrefix, IntToString(v));
      NotPrefixed(s, ImprovedPrefix);
      NotPrefixed(s, NoChange);
      s
    else if v < 0 then
      var s := ImprovedPrefix + IntToString(WrapToInt32(-(v as int)));
      Prefixed(ImprovedPrefix, IntToString(WrapToInt32(-(v as int))));
      NotPrefixed(s, WorsePrefix);
      NotPrefixed(s, NoChange);
      s
    else
      NotPrefixed(NoChange, WorsePrefix);
      NotPrefixed(NoChange, ImprovedPrefix);
      NoChange
  }

  lemma Prefixed(p: string, t: string)
    ensures |p + t| >= |p| && (p + t)[..|p|] == p
    ensures |p| > 0 ==> (p + t)[0] == p[0]
  {
  }

  /** Text whose first character differs from a prefix's neither starts
      with it nor equals it. */
  lemma NotPrefixed(s: string, p: string)
    requires |s| > 0 && |p| > 0 && s[0] != p[0]
    ensures !(|s| >= |p| && s[..|p|] == p)
    ensures s != p
  {
    assert |s| >= |p| ==> s[..|p|][0] == s[0];
  }

  lemma DropPrefix(p: string, t: string)
    ensures (p + t)[|p|..] == t
  {
  }

  /** The number after the arrow reads back as the size of the change, and for
      an improvement it is positive — except for the most negative Int, whose
      negation wraps to itself. */
  lemma FormatChangeReadsBack(v: Int32)
    ensures v > 0 ==> ParseInt(FormatChange(v)[|WorsePrefix|..]) == Some(v)
    ensures v < 0 && v != IntMin ==>
      ParseInt(FormatChange(v)[|ImprovedPrefix|..]) == Some(-(v as int)) && -(v as int) > 0
    ensures v == IntMin ==> ParseInt(FormatChange(v)[|ImprovedPrefix|..]) == Some(IntMin)
  {
    if v > 0 {
      DropPrefix(WorsePrefix, IntToString(v));
      ParseIntToString(v);
    } else if v < 0 {
      var size := WrapToInt32(-(v as int));
      DropPrefix(ImprovedPrefix, IntToString(size));
      ParseIntToString(size);
    }
  }

  // ------------------------------------------------- latest vs previous

  datatype Colour = Red | Green | Black

  /** The colour of a line: a rise is red, a fall green, no change black. */
  function ChangeColour(difference: int): Colour
  {
    if difference > 0 then Red else if difference < 0 then Green else Black
  }

  /** The colour and the wording always agree. */
  lemma ColourMatchesWording(d: Int32)
    ensures ChangeColour(d) == Red <==>
              |FormatChange(d)| >= |WorsePrefix| && FormatChange(d)[..|WorsePrefix|] == WorsePrefix
    ensures ChangeColour(d) == Green <==>
              |FormatChange(d)| >= |ImprovedPrefix| && FormatChange(d)[..|ImprovedPrefix|] == ImprovedPrefix
    ensures ChangeColour(d) == Black <==> FormatChange(d) == NoChange
  {
  }

  /** One line of the history view. */
  datatype ChangeLine = ChangeLine(score: Int32, difference: Int32, text: string, colour: Colour)

  /** What the history view shows: nothing loaded, one line per chakra of the
      latest quiz, or the exception an ill-typed entry raises. */
  datatype QuizSummary = NoQuizResults | Changes(lines: map<string, ChangeLine>) | CastFailure

  function Line(chakra: string, score: Int32, previousScore: Int32): ChangeLine
  {
    var difference := WrapToInt32(score as int - previousScore as int);
    ChangeLine(score, difference,
      chakra + ": " + IntToString(score) + " (" + FormatChange(difference) + ")",
      ChangeColour(difference))
  }

  lemma LineFields(chakra: string, score: Int32, previousScore: Int32)
    ensures Line(chakra, score, previousScore).score == score
    ensures Line(chakra, score, previousScore).difference == WrapToInt32(score - previousScore)
    ensures Line(chakra, score, previousScore).colour == ChangeColour(WrapToInt32(score - previousScore))
  {
  }

  /** A line's colour against the two scores it compares. While the
      subtraction stays in range, red means the score rose, green that it
      fell and black that it held. A rise too large for an Int wraps to a
      negative difference and shows green; a fall too large shows red. */
  lemma ColourFollowsScores(chakra: string, score: Int32, previousScore: Int32)
    ensures var d := score as int - previousScore as int;
            IntMin <= d <= IntMax ==>
              && (Line(chakra, score, previousScore).colour == Red <==> score > previousScore)
              && (Line(chakra, score, previousScore).colour == Green <==> score < previousScore)
              && (Line(chakra, score, previousScore).colour == Black <==> score == previousScore)
    ensures score as int - previousScore as int > IntMax ==> Line(chakra, score, previousScore).colour == Green
    ensures score as int - previousScore as int < IntMin ==> Line(chakra, score, previousScore).colour == Red
  {
    LineFields(chakra, score, previousScore);
    WrappedColour(score as int - previousScore as int);
  }

  /** The colour of a wrapped difference of two Ints. */
  lemma WrappedColour(d: int)
    requires IntMin - IntMax <= d <= IntMax - IntMin
    ensures IntMin <= d <= IntMax ==> ChangeColour(WrapToInt32(d)) == ChangeColour(d)
    ensures d > IntMax ==> ChangeColour(WrapToInt32(d)) == Green
    ensures d < IntMin ==> ChangeColour(WrapToInt32(d)) == Red
  {
    if d > IntMax {
      assert WrapToInt32(d) == d - Modulus;
    } else if d < IntMin {
      assert WrapToInt32(d) == d + Modulus;
    }
  }

  /** The score the previous quiz gave a chakra, 0 when there is no previous
      quiz or it lacks the chakra. */
  function PreviousScore(previous: Option<map<string, Int32>>, chakra: string): Int32
  {
    if previous.Some? && chakra in previous.value then previous.value[chakra] else 0
  }

  /** The comparison the profile screen renders: the last entry of the list is
      the latest quiz, the one before it (if any) the previous quiz. */
  ghost function CompareLatest(history: seq<map<string, Dyn>>): (r: QuizSummary)
    ensures r.NoQuizResults? <==> history == []
    ensures r.Changes? ==> forall c | c in r.lines ::
      && (r.lines[c].colour == Red <==> r.lines[c].difference > 0)
      && (r.lines[c].colour == Green <==> r.lines[c].difference < 0)
      && (r.lines[c].colour == Black <==> r.lines[c].difference == 0)
  {
    if history == [] then NoQuizResults
    else
      var latest := ExtractChakraScores(history[|history| - 1]);
      var previous := if |history| > 1 then Some(ExtractChakraScores(history[|history| - 2])) else None;
      if latest.None? || (previous.Some? && previous.value.None?) then CastFailure
      else
        var prior := if previous.Some? then previous.value else None;
        Changes(map c | c in latest.value :: Line(c, latest.value[c], PreviousScore(prior, c)))
  }

  /** The totals of the quiz before the latest one, if there is one. */
  ghost function PreviousTotals(results: seq<QuizResult>): Option<map<string, Int32>>
  {
    if |results| > 1 then Some(Totals(results[|results| - 2])) else None
  }

  lemma CompareExtracted(history: seq<map<string, Dyn>>, latest: map<string, Int32>, prior: Option<map<string, Int32>>)
    requires history != []
    requires ExtractChakraScores(history[|history| - 1]) == Some(latest)
    requires |history| > 1 ==> prior.Some? && ExtractChakraScores(history[|history| - 2]) == Some(prior.value)
    requires |history| <= 1 ==> prior == None
    ensures CompareLatest(history) == Changes(map c | c in latest :: Line(c, latest[c], PreviousScore(prior, c)))
  {
  }

  /** For quizzes loaded from the database the view lists every chakra of the
      latest quiz with its total, and the difference from the previous quiz's
      total for that chakra (0 when there is no previous quiz or it lacks the
      chakra), computed in Int arithmetic. */
  lemma LatestAgainstPrevious(results: seq<QuizResult>)
    requires |results| > 0
    ensures CompareLatest(History(results)).Changes?
    ensures var lines := CompareLatest(History(results)).lines;
            var latest := Totals(results[|results| - 1]);
            var prior := PreviousTotals(results);
            && lines.Keys == latest.Keys
            && forall c | c in lines ::
                 && lines[c].score == latest[c]
                 && lines[c].difference == WrapToInt32(latest[c] - PreviousScore(prior, c))
  {
    var h := History(results);
    var n := |results|;
    var latest := Totals(results[n - 1]);
    var prior := PreviousTotals(results);
    ExtractFromHistoryEntry(results[n - 1]);
    if n > 1 {
      ExtractFromHistoryEntry(results[n - 2]);
    }
    CompareExtracted(h, latest, prior);
    forall c | c in latest {
      LineFields(c, latest[c], PreviousScore(prior, c));
    }
  }

  // ------------------------------------------- which quiz is the latest

  /** `s` back to front. */
  function Reverse<T>(s: seq<T>): (r: seq<T>)
    ensures |r| == |s|
    ensures forall i | 0 <= i < |s| :: r[i] == s[|s| - 1 - i]
  {
    seq(|s|, i requires 0 <= i < |s| => s[|s| - 1 - i])
  }

  /** The loader lists the quizzes newest first, yet the view takes the last
      element as the latest. So when a chakra's total rose from the oldest
      quiz to the one after it, the view shows the oldest total, in green, as
      an improvement. The app's own saves keep a single quiz document per
      user, so this needs quiz documents written by something else. */
  lemma OldestShownAsLatest(results: seq<QuizResult>, c: string)
    requires |results| >= 2
    requires c in results[|results| - 1].quizResults && c in results[|results| - 2].quizResults
    requires IntMin <= Totals(results[|results| - 1])[c] as int - Totals(results[|results| - 2])[c] as int < 0
    ensures CompareLatest(History(results)).Changes?
    ensures var lines := CompareLatest(History(results)).lines;
            && c in lines
            && lines[c].score == Totals(results[|results| - 1])[c]
            && lines[c].colour == Green
  {
    LatestAgainstPrevious(results);
  }

  /** The comparison with the list in the loader's order: the first element is
      the latest quiz and the second, if any, the previous one. */
  ghost function CompareNewest(history: seq<map<string, Dyn>>): (r: QuizSummary)
    ensures r.NoQuizResults? <==> history == []
  {
    CompareLatest(Reverse(history))
  }

  /** The totals of the quiz after the first one, if there is one. */
  ghost function NextTotals(results: seq<QuizResult>): Option<map<string, Int32>>
  {
    if |results| > 1 then Some(Totals(results[1])) else None
  }

  /** For quizzes loaded newest first, the corrected view lists every chakra
      of the newest quiz with its total and the wrapped difference from the
      next newest quiz's total for that chakra (0 when there is none). */
  lemma NewestAgainstPrevious(results: seq<QuizResult>)
    requires |results| > 0
    ensures CompareNewest(History(results)).Changes?
    ensures var lines := CompareNewest(History(results)).lines;
            var newest := Totals(results[0]);
            var prior := NextTotals(results);
            && lines.Keys == newest.Keys
            && forall c | c in lines ::
                 && lines[c].score == newest[c]
                 && lines[c].difference == WrapToInt32(newest[c] - PreviousScore(prior, c))
  {
    var h := Reverse(History(results));
    var newest := Totals(results[0]);
    var prior := NextTotals(results);
    ExtractFromHistoryEntry(results[0]);
    assert h[|h| - 1] == HistoryEntry(results[0]);
    if |results| > 1 {
      ExtractFromHistoryEntry(results[1]);
      assert h[|h| - 2] == HistoryEntry(results[1]);
    }
    CompareExtracted(h, newest, prior);
    forall c | c in newest {
      LineFields(c, newest[c], PreviousScore(prior, c));
    }
  }

  /** In the corrected view a chakra whose total rose from the second quiz
      of the list to the first, newest one is shown with the newest total, in
      red, as worse. */
  lemma NewestShownAsLatest(results: seq<QuizResult>, c: string)
    requires |results| >= 2
    requires c in results[0].quizResults && c in results[1].quizResults
    requires 0 < Totals(results[0])[c] as int - Totals(results[1])[c] as int <= IntMax
    ensures CompareNewest(History(results)).Changes?
    ensures var lines := CompareNewest(History(results)).lines;
            && c in lines
            && lines[c].score == Totals(results[0])[c]
            && lines[c].colour == Red
  {
    NewestAgainstPrevious(results);
  }
}

=== FILE: quiz_results_screen.dfy ===
/** The summary screen shown right after a quiz: per-chakra totals and the
    most imbalanced chakra. Its input is an untyped map whose iteration order
    decides ties, so it is modelled as the sequence of its entries. */
module QuizResultsScreen {
  import opened Kotlin
  import opened Dynamic
  import opened Sums
  import opened FirestoreUtils

  /** The screen's `Map<String, Any>` in iteration order. */
  type Entries = seq<(string, Dyn)>

  /** The numeric entries of a raw answer map, each through `toInt()`;
      entries of any other kind are skipped. */
  function NumericAnswers(m: map<string, Dyn>): (a: map<string, int>)
    ensures a.Keys == set q | q in m && m[q].DNum?
    ensures forall q | q in a :: IntMin <= a[q] <= IntMax
    ensures forall q | q in a && IntMin <= m[q].n <= IntMax :: a[q] == m[q].n
  {
    map q | q in m && m[q].DNum? :: WrapToInt32(m[q].n) as int
  }

  /** A chakra's score: the Int sum of the numbers in its answer map, or 0
      when its value is not a map. */
  ghost function ChakraScore(v: Dyn): (score: Int32)
    ensures !v.DMap? ==> score == 0
    ensures v.DMap? && (forall q | q in v.entries :: !v.entries[q].DNum?) ==> score == 0
  {
    if v.DMap? then IntSum(NumericAnswers(v.entries)) else 0
  }

  /** Answers the app stored score their Int sum: reading the stored form
      back loses nothing. */
  lemma ChakraScoreOfStored(s: map<string, int>)
    requires forall q | q in s :: IntMin <= s[q] <= IntMax
    ensures ChakraScore(DMap(FromScores(s))) == IntSum(s)
  {
    assert NumericAnswers(FromScores(s)) == s;
  }

  /** Drops the timestamp entries and scores every other entry, keeping the
      order. */
  ghost function CleanResults(raw: Entries): (r: seq<(string, int)>)
    ensures |r| <= |raw|
  {
    if raw == [] then []
    else if raw[0].1 == DTimestamp then CleanResults(raw[1..])
    else [(raw[0].0, ChakraScore(raw[0].1) as int)] + CleanResults(raw[1..])
  }

  /** Entry `j` of the input is kept, with its score. */
  ghost predicate KeptFrom(raw: Entries, j: int, e: (string, int)) {
    0 <= j < |raw| && raw[j].1 != DTimestamp && e == (raw[j].0, ChakraScore(raw[j].1) as int)
  }

  /** The cleaned list holds exactly the scored non-timestamp entries. */
  lemma {:induction false} CleanResultsMembers(raw: Entries, e: (string, int))
    ensures e in CleanResults(raw) <==> exists j :: KeptFrom(raw, j, e)
  {
    if raw != [] {
      CleanResultsMembers(raw[1..], e);
      if e in CleanResults(raw) {
        if e !in CleanResults(raw[1..]) {
          assert KeptFrom(raw, 0, e);
        } else {
          var j :| KeptFrom(raw[1..], j, e);
          assert KeptFrom(raw, j + 1, e);
        }
      }
      if j :| KeptFrom(raw, j, e) {
        if j > 0 {
          assert KeptFrom(raw[1..], j - 1, e);
        }
      }
    }
  }

  /** Cleaning a list in two parts is cleaning the parts: the relative order
      of the kept entries is the order of the input. */
  lemma {:induction false} CleanResultsAppend(a: Entries, b: Entries)
    ensures CleanResults(a + b) == CleanResults(a) + CleanResults(b)
  {
    if a != [] {
      assert (a + b)[1..] == a[1..] + b;
      CleanResultsAppend(a[1..], b);
    } else {
      assert a + b == b;
    }
  }

  /** A score map with non-numeric entries scores the sum of its numbers only;
      a value that is not a map scores 0. */
  lemma ChakraScoreIgnoresNonNumbers(m: map<string, Dyn>, q: string, v: Dyn)
    requires q !in m && !v.DNum?
    ensures ChakraScore(DMap(m[q := v])) == ChakraScore(DMap(m))
  {
    assert NumericAnswers(m[q := v]) == NumericAnswers(m);
  }

  // ----------------------------------------------------------- maxByOrNull

  /** `i` holds the greatest score, and no earlier entry holds it. */
  predicate IsFirstMax(s: seq<(string, int)>, i: int) {
    && 0 <= i < |s|
    && (forall j | 0 <= j < |s| :: s[j].1 <= s[i].1)
    && (forall j | 0 <= j < i :: s[j].1 < s[i].1)
  }

  const NoChakra: string := "None"

  /** The most imbalanced chakra: the first entry with the greatest score,
      provided that score is positive, and "None" otherwise (also for an
      empty list). */
  method MostImbalanced(s: seq<(string, int)>) returns (name: string)
    ensures (forall j | 0 <= j < |s| :: s[j].1 <= 0) ==> name == NoChakra
    ensures (exists j | 0 <= j < |s| :: s[j].1 > 0) ==>
              exists i :: IsFirstMax(s, i) && s[i].1 > 0 && name == s[i].0
  {
    if |s| == 0 {
      return NoChakra;
    }
    var best := 0;
    var i := 1;
    while i < |s|
      invariant 1 <= i <= |s|
      invariant 0 <= best < i
      invariant forall j | 0 <= j < i :: s[j].1 <= s[best].1
      invariant forall j | 0 <= j < best :: s[j].1 < s[best].1
    {
      if s[best].1 < s[i].1 {
        best := i;
      }
      i := i + 1;
    }
    assert IsFirstMax(s, best);
    if s[best].1 > 0 {
      name := s[best].0;
    } else {
      name := NoChakra;
    }
  }
}

=== FILE: quiz_screen.dfy ===
/** The quiz screen: a fixed table of questions per chakra, one 1-to-5 slider
    per question, the check for unanswered questions on submit, and the
    hand-off to `saveQuizResults`. */
module QuizScreen {
  import opened Kotlin
  import opened Dynamic
  import opened Chakras
  import opened FirestoreUtils
  import ChakraResultsScreen

  /** `chakraQuestions`, in the order the screen lists them. */
  const ChakraQuestions: seq<(string, seq<string>)> := [
    ("Root", ["Fatigue", "Insecurity", "Instability"]),
    ("Sacral", ["Loneliness", "Betrayal", "Regretful"]),
    ("Solar Plexus", ["Low self-esteem", "Fear", "Lack of confidence"]),
    ("Heart", ["Jealousy", "Abandonment", "Anger"]),
    ("Throat", ["Anxiety", "Fear of judgement"]),
    ("Third Eye", ["Judgemental", "Unfocused"]),
    ("Crown", ["Hopelessness", "Disconnected"])
  ]

  /** The table covers the seven chakras in order, with 3, 3, 3, 3, 2, 2 and 2
      distinct questions. */
  lemma QuestionTableShape()
    ensures |ChakraQuestions| == |Names|
    ensures forall i | 0 <= i < |Names| :: ChakraQuestions[i].0 == Names[i]
    ensures forall i | 0 <= i < |ChakraQuestions| ::
              |ChakraQuestions[i].1| == [3, 3, 3, 3, 2, 2, 2][i]
    ensures forall i, j, k | 0 <= i < |ChakraQuestions| && 0 <= j < k < |ChakraQuestions[i].1| ::
              ChakraQuestions[i].1[j] != ChakraQuestions[i].1[k]
  {
  }

  /** The results screen's maxima assume more questions than the table asks:
      for every chakra even all answers at 5 stay below its maximum, so a
      completed quiz never shows a full bubble. */
  lemma MaximaExceedQuestionTable()
    ensures forall i | 0 <= i < |Names| ::
              5 * |ChakraQuestions[i].1| < ChakraResultsScreen.MaxScoreForChakra(Names[i])
  {
    QuestionTableShape();
    ChakraResultsScreen.MaxScoreTable();
  }

  /** Chakra to question to recorded answer. */
  type Responses = map<string, map<string, int>>

  /** The responses when the screen opens: every chakra, nothing answered. */
  const InitialResponses: Responses := map[
    "Root" := map[], "Sacral" := map[], "Solar Plexus" := map[], "Heart" := map[],
    "Throat" := map[], "Third Eye" := map[], "Crown" := map[]]

  lemma InitialResponsesShape()
    ensures InitialResponses.Keys == set c | c in Names
    ensures forall c | c in InitialResponses :: InitialResponses[c] == map[]
  {
  }

  /** A position of a slider whose range is 1 to 5 in whole steps. */
  type SliderValue = v: int | 1 <= v <= 5 witness 1

  /** A slider moved to `value`: records the answer for that one question of
      that one chakra; a chakra the responses do not know is ignored. */
  function MoveSlider(responses: Responses, chakra: string, question: string, value: SliderValue): (r: Responses)
    ensures r.Keys == responses.Keys
    ensures chakra in r ==> r[chakra].Keys == responses[chakra].Keys + {question}
    ensures chakra in r ==> r[chakra][question] == value
    ensures forall c | c in responses && c != chakra :: r[c] == responses[c]
    ensures forall c, q | c in responses && q in responses[c] && (c, q) != (chakra, question) ::
              q in r[c] && r[c][q] == responses[c][q]
    ensures chakra !in responses ==> r == responses
  {
    if chakra in responses then responses[chakra := responses[chakra][question := value]]
    else responses
  }

  /** Every recorded answer is a slider position. */
  predicate AnswersInRange(responses: Responses) {
    forall c, q | c in responses && q in responses[c] :: 1 <= responses[c][q] <= 5
  }

  /** How an unanswered question is named in the warning: the chakra, a
      spaced dash, then the question. */
  function QuestionLabel(chakra: string, question: string): string {
    chakra + " - " + question
  }

  /** The unanswered list as written: every recorded answer equal to 0. */
  function Unanswered(responses: Responses): (u: set<string>)
    ensures forall c, q | c in responses && q in responses[c] && responses[c][q] == 0 ::
              QuestionLabel(c, q) in u
    ensures AnswersInRange(responses) ==> u == {}
  {
    set c, q | c in responses && q in responses[c] && responses[c][q] == 0 :: QuestionLabel(c, q)
  }

  /** A sequence of slider moves. */
  datatype Move = Move(chakra: string, question: string, value: SliderValue)

  function ApplyMoves(responses: Responses, moves: seq<Move>): Responses
  {
    if moves == [] then responses
    else ApplyMoves(MoveSlider(responses, moves[0].chakra, moves[0].question, moves[0].value), moves[1..])
  }

  /** Slider moves only ever record slider positions, and never add a chakra. */
  lemma {:induction false} MovesKeepAnswersInRange(responses: Responses, moves: seq<Move>)
    requires AnswersInRange(responses)
    ensures AnswersInRange(ApplyMoves(responses, moves))
    ensures ApplyMoves(responses, moves).Keys == responses.Keys
  {
    if moves != [] {
      var m := moves[0];
      MovesKeepAnswersInRange(MoveSlider(responses, m.chakra, m.question, m.value), moves[1..]);
    }
  }

  /** What pressing "Submit Quiz" does. */
  datatype SubmitStep = Submit | AskToConfirm(missing: set<string>)

  function OnSubmit(responses: Responses): (step: SubmitStep)
    ensures step == Submit <==> Unanswered(responses) == {}
  {
    var missing := Unanswered(responses);
    if missing == {} then Submit else AskToConfirm(missing)
  }

  /** Whatever the user does with the sliders, the check finds nothing
      unanswered and the quiz is submitted at once. */
  lemma SubmitAfterAnyMoves(moves: seq<Move>)
    ensures Unanswered(ApplyMoves(InitialResponses, moves)) == {}
    ensures OnSubmit(ApplyMoves(InitialResponses, moves)) == Submit
  {
    MovesKeepAnswersInRange(InitialResponses, moves);
  }

  /** In particular a quiz in which no slider was touched is submitted without
      a single answer, although every slider shows "None" (position 1). */
  lemma UntouchedQuizSubmitsNoAnswers()
    ensures OnSubmit(InitialResponses) == Submit
    ensures forall c | c in InitialResponses :: InitialResponses[c] == map[]
  {
    assert Unanswered(InitialResponses) == {};
  }

  // ------------------------------------------------ what the screen shows

  const Labels: seq<string> := ["None", "Mild", "Moderate", "Severe", "Extreme"]

  /** The word under a slider: the label at the slider's position, counting
      from 1. The position always names one of the five labels. */
  function SelectedLabel(v: SliderValue): (word: string)
    ensures word in Labels
    ensures v == 1 <==> word == "None"
    ensures v == 5 <==> word == "Extreme"
  {
    Labels[v - 1]
  }

  /** Distinct slider positions show distinct words. */
  lemma LabelsDistinct(v: SliderValue, w: SliderValue)
    ensures SelectedLabel(v) == SelectedLabel(w) <==> v == w
  {
  }

  /** The answer a question shows: what was recorded, or the slider's starting
      position 1 when nothing was. */
  function ShownAnswer(responses: Responses, chakra: string, question: string): int
  {
    if chakra in responses && question in responses[chakra] then responses[chakra][question] else 1
  }

  /** The questions the table lists for a chakra; none for an unknown name. */
  function QuestionsOf(chakra: string): seq<string>
  {
    Lookup(ChakraQuestions, chakra)
  }

  function Lookup(table: seq<(string, seq<string>)>, chakra: string): seq<string>
  {
    if table == [] then []
    else if table[0].0 == chakra then table[0].1
    else Lookup(table[1..], chakra)
  }

  /** A question the screen puts a slider under. */
  predicate InTable(chakra: string, question: string) {
    chakra in Names && question in QuestionsOf(chakra)
  }

  /** As written, whatever other sliders are moved, a question of any chakra
      (in particular each question of the table) whose own slider is never
      touched shows position 1 but has no recorded answer, so it is not
      handed over. */
  lemma UntouchedSliderNotRecorded(moves: seq<Move>, c: string, q: string)
    requires c in Names
    requires forall i | 0 <= i < |moves| :: moves[i].chakra != c || moves[i].question != q
    ensures c in ApplyMoves(InitialResponses, moves)
    ensures q !in ApplyMoves(InitialResponses, moves)[c]
    ensures ShownAnswer(ApplyMoves(InitialResponses, moves), c, q) == 1
  {
    assert c in InitialResponses;
    UntouchedStaysUnrecorded(InitialResponses, moves, c, q);
  }

  /** Moves that never touch question `q` of chakra `c` leave it unrecorded. */
  lemma {:induction false} UntouchedStaysUnrecorded(responses: Responses, moves: seq<Move>, c: string, q: string)
    requires c in responses && q !in responses[c]
    requires forall i | 0 <= i < |moves| :: moves[i].chakra != c || moves[i].question != q
    ensures c in ApplyMoves(responses, moves) && q !in ApplyMoves(responses, moves)[c]
    decreases |moves|
  {
    if moves != [] {
      var m := moves[0];
      var next := MoveSlider(responses, m.chakra, m.question, m.value);
      assert q !in next[c];
      assert forall i | 0 <= i < |moves[1..]| :: moves[1..][i] == moves[i + 1];
      UntouchedStaysUnrecorded(next, moves[1..], c, q);
    }
  }

  /** The starting responses with each slider's starting position recorded:
      every question of the table answered 1. */
  function StartingResponses(): (r: Responses)
    ensures r.Keys == InitialResponses.Keys
    ensures AnswersInRange(r)
    ensures forall c, q | InTable(c, q) :: c in r && q in r[c]
    ensures forall c, q | c in r && q in r[c] :: r[c][q] == 1
  {
    map c | c in Names :: map q | q in QuestionsOf(c) :: 1
  }

  /** If one question's recorded answer in `shown` is what the screen shows for
      `before`, the same slider moves applied to both keep it so. */
  lemma {:induction false} MovesKeepShownAnswer(moves: seq<Move>, before: Responses, shown: Responses, c: string, q: string)
    requires before.Keys == shown.Keys
    requires c in shown && q in shown[c] && shown[c][q] == ShownAnswer(before, c, q)
    ensures var r := ApplyMoves(shown, moves);
            c in r && q in r[c] && r[c][q] == ShownAnswer(ApplyMoves(before, moves), c, q)
    decreases |moves|
  {
    if moves != [] {
      var m := moves[0];
      var before' := MoveSlider(before, m.chakra, m.question, m.value);
      var shown' := MoveSlider(shown, m.chakra, m.question, m.value);
      MovesKeepShownAnswer(moves[1..], before', shown', c, q);
    }
  }

  /** The corrected quiz: from the recorded starting positions, every question
      of the table is handed over, with the answer the screen shows. */
  lemma CorrectedQuizAnswersEveryQuestion(moves: seq<Move>)
    ensures forall c, q | InTable(c, q) ::
              var r := ApplyMoves(StartingResponses(), moves);
              c in r && q in r[c] && 1 <= r[c][q] <= 5
              && r[c][q] == ShownAnswer(ApplyMoves(InitialResponses, moves), c, q)
  {
    var start := StartingResponses();
    var initial := InitialResponses;
    InitialResponsesShape();
    MovesKeepAnswersInRange(start, moves);
    forall c, q | c in start && q in start[c]
      ensures var r := ApplyMoves(start, moves);
              c in r && q in r[c] && r[c][q] == ShownAnswer(ApplyMoves(initial, moves), c, q)
    {
      MovesKeepShownAnswer(moves, initial, start, c, q);
    }
  }

  // ------------------------------------------------------------ submitQuiz

  /** `submitQuiz`: with no signed-in user nothing is saved and the stored
      document stays as it was; otherwise the answers are merged into it. */
  function SubmitQuiz(userId: string, answers: ChakraResults, stored: Document): (after: Document)
    ensures userId == [] ==> after == stored
    ensures userId != [] ==> ReadQuizResults(after) == OverrideMerge(ReadQuizResults(stored), answers)
  {
    if userId == [] then stored
    else
      SaveThenRead(userId, stored, answers);
      SaveQuizResults(userId, stored, answers).value
  }
}

=== FILE: sums.dfy ===
/** Sums over the values of a finite map. Kotlin's `values.sum()` adds in the
    map's iteration order; addition is commutative, so the order is irrelevant
    and the sum is defined here over the key set. */
module Sums {
  import opened Kotlin

  ghost function SumOn(m: map<string, int>, keys: set<string>): int
    requires keys <= m.Keys
  {
    if keys == {} then 0
    else
      var k :| k in keys;
      m[k] + SumOn(m, keys - {k})
  }

  /** The exact sum of all values of `m`. */
  ghost function MapSum(m: map<string, int>): int
  {
    SumOn(m, m.Keys)
  }

  /** `Iterable<Int>.sum()`: the exact sum, wrapped to a 32-bit `Int` as every
      intermediate Int addition is. */
  ghost function IntSum(m: map<string, int>): Int32
  {
    WrapToInt32(MapSum(m))
  }

  /** The sum does not depend on which key is taken out first. */
  lemma {:induction false} SumOnRemove(m: map<string, int>, keys: set<string>, k: string)
    requires keys <= m.Keys && k in keys
    ensures SumOn(m, keys) == m[k] + SumOn(m, keys - {k})
    decreases keys
  {
    var j :| j in keys && SumOn(m, keys) == m[j] + SumOn(m, keys - {j});
    if j != k {
      SumOnRemove(m, keys - {j}, k);
      SumOnRemove(m, keys - {k}, j);
      assert keys - {j} - {k} == keys - {k} - {j};
    }
  }

  /** Values between `lo` and `hi` sum to between `lo` and `hi` times the count. */
  lemma {:induction false} SumOnBounds(m: map<string, int>, keys: set<string>, lo: int, hi: int)
    requires keys <= m.Keys
    requires forall k | k in keys :: lo <= m[k] <= hi
    ensures lo * |keys| <= SumOn(m, keys) <= hi * |keys|
    decreases keys
  {
    if keys != {} {
      var j :| j in keys && SumOn(m, keys) == m[j] + SumOn(m, keys - {j});
      SumOnBounds(m, keys - {j}, lo, hi);
      var n := |keys - {j}|;
      assert |keys| == n + 1;
      MulSucc(lo, n);
      MulSucc(hi, n);
    }
  }

  lemma MulSucc(a: int, n: int)
    ensures a * (n + 1) == a * n + a
  {
  }

  lemma MapSumBounds(m: map<string, int>, lo: int, hi: int)
    requires forall k | k in m :: lo <= m[k] <= hi
    ensures lo * |m| <= MapSum(m) <= hi * |m|
  {
    SumOnBounds(m, m.Keys, lo, hi);
    assert |m.Keys| == |m|;
  }

  lemma MapSumSingleton(k: string, v: int)
    ensures MapSum(map[k := v]) == v
  {
    var m := map[k := v];
    assert m.Keys == {k};
    SumOnRemove(m, m.Keys, k);
    assert m.Keys - {k} == {};
  }

  // --------------------------------------------------------------- reals

  ghost function RealSumOn(m: map<string, real>, keys: set<string>): real
    requires keys <= m.Keys
  {
    if keys == {} then 0.0
    else
      var k :| k in keys;
      m[k] + RealSumOn(m, keys - {k})
  }

  /** The exact sum of all values of a real-valued map (`Iterable<Double>.sum()`
      without rounding). */
  ghost function RealMapSum(m: map<string, real>): real
  {
    RealSumOn(m, m.Keys)
  }

  /** `g` maps sums to sums. */
  ghost predicate Additive(g: int -> real) {
    forall a: int, b: int :: g(a) + g(b) == g(a + b)
  }

  /** Applying an additive map to every value applies it to the sum. */
  lemma {:induction false} SumOnAdditive(t: map<string, int>, s: map<string, real>, keys: set<string>, g: int -> real)
    requires keys <= t.Keys && keys <= s.Keys
    requires Additive(g) && g(0) == 0.0
    requires forall c | c in keys :: s[c] == g(t[c])
    ensures RealSumOn(s, keys) == g(SumOn(t, keys))
    decreases keys
  {
    if keys != {} {
      var j :| j in keys && RealSumOn(s, keys) == s[j] + RealSumOn(s, keys - {j});
      SumOnAdditive(t, s, keys - {j}, g);
      SumOnRemove(t, keys, j);
      assert g(t[j]) + g(SumOn(t, keys - {j})) == g(t[j] + SumOn(t, keys - {j}));
    }
  }

  lemma MapSumAdditive(t: map<string, int>, s: map<string, real>, g: int -> real)
    requires s.Keys == t.Keys
    requires Additive(g) && g(0) == 0.0
    requires forall c | c in t :: s[c] == g(t[c])
    ensures RealMapSum(s) == g(MapSum(t))
  {
    SumOnAdditive(t, s, t.Keys, g);
  }

  // ------------------------------------------------------------ computed

  /** `values.sum()` computed by visiting the keys one at a time. */
  method SumValues(m: map<string, int>) returns (total: int)
    ensures total == MapSum(m)
  {
    total := 0;
    var rest := m.Keys;
    while rest != {}
      invariant rest <= m.Keys
      invariant total + SumOn(m, rest) == MapSum(m)
      decreases rest
    {
      var k :| k in rest;
      SumOnRemove(m, rest, k);
      total := total + m[k];
      rest := rest - {k};
    }
  }
}

=== FILE: wrappers.dfy ===
/** Failure-carrying values: `Option` for Kotlin's nullable results, `Result` for
    operations that either produce a value or report an error message. */
module Wrappers {

  datatype Option<+T> = None | Some(value: T)

  datatype Result<+T, +E> = Success(value: T) | Failure(error: E)
}
